=== FILE: README.md ===
# CVE-to-OSV conversion decisions for C/C++ CVEs, in Dafny

This project models the decision logic of the C/C++ vulnerability feed
converter in `vulnfeeds/cpp/main.go`. The converter walks an NVD CVE feed and
does the following for each CVE:

- It derives candidate source repositories. These come from a cache keyed by
  the CPE vendor/product, or are mined from the CVE's references.
- It resolves the CVE's textual affected versions to Git commits of those
  repositories.
- It emits an OSV or PackageInfo record.
- It records a conversion outcome under the CVE's ID. The exception is a CVE
  with references, no CPEs and no repository derivable from the references:
  it is dropped without any outcome.

The model has these modules:

- `Wrappers`: `Option` and `Result`.
- `Seqs`: duplicate-free sequences, first-occurrence de-duplication
  (`Dedup`) and the "append what is missing" loop (`AppendMissing`).
- `VendorProducts`: the `VendorProduct` key and its `vendor:product` text
  form, with `strings.Split` on `:` written out.
- `ScopeFilters`: the reference tag deny list and the vendor/product deny
  list.
- `Outcomes`: the closed `ConversionOutcome` enumeration, its integer codes
  and its names.
- `RepoCache`: the vendor/product → repositories cache and its conditional
  add and remove.
- `Cves`: the feed's records (references, CPEs, affected versions and
  commits). It also holds the external collaborators, as one datatype of
  function-typed fields.
- `Mining`: `refAcceptable` and `ReposFromReferences`.
- `Resolver`: `GitVersionsToCommits`.
- `Emitters`: the error gating of `CVEToOSV` and `CVEToPackageInfo` up to the
  point where a record is written, and the mapping of an emitter's error to
  an outcome.
- `Classifier`: the body of the main loop as a state transition, and the run
  over the whole feed.

The collaborators from packages outside this file are fields of
`Cves.Collaborators`. These are `cves.Repo`, `git.ValidRepo`,
`git.NormalizeRepoTags`, `git.VersionToCommit`, `cves.ParseCPE`, and the
number of ranges `AttachExtractedVersionInfo` builds. Every contract holds for
every choice of these functions.

A denied reference does not keep its repository out of the result. An
earlier acceptable reference to the same repository keeps it there
(`Mining.DeniedReferenceRepoCanSurvive`). The denied reference's raw URL is
what gets retracted from the cache, not the repository it normalises to, so a
cached repository can survive the retraction
(`Mining.RawUrlRetractionMissesRepo`).

## Model

| member | source | states |
|---|---|---|
| VendorProducts.SplitColon | vulnfeeds/cpp/main.go:28 | `strings.Split` on `:`: at least one piece, no piece holds a colon, the pieces joined with `:` give the input back, and the input has no colon exactly when it is its own single piece |
| VendorProducts.UnmarshalText | vulnfeeds/cpp/main.go:27-32 | decoding succeeds exactly when the text holds a colon (otherwise Go indexes past the split result); vendor and product are colon-free, and the text is exactly `vendor:product` or starts with `vendor:product:`, so they are the first two pieces and any third piece is ignored |
| VendorProducts.UnmarshalTextRoundTrip | vulnfeeds/cpp/main.go:27-32 | a colon-free vendor and product written as `vendor:product` decode back to the same pair |
| VendorProducts.SplitJoin | vulnfeeds/cpp/main.go:28 | splitting colon-free pieces joined with `:` returns the pieces |
| Outcomes.FromCode | vulnfeeds/cpp/main.go:52-61 | the integer codes 0..6 are exactly the outcomes, in declaration order, and decoding inverts `Outcomes.Code` |
| Outcomes.OutcomeString | vulnfeeds/cpp/main.go:44-46 | the name table yields a name exactly for the codes of the enumeration; any other code indexes past it |
| Outcomes.OutcomeStringNamesOutcome | vulnfeeds/cpp/main.go:44-61 | every outcome's code maps back to it and has a name, and distinct outcomes have distinct names |
| ScopeFilters.DeniedVendorProducts | vulnfeeds/cpp/main.go:91-103 | `ScopeFilters.VendorProductDenied` holds: a vendor/product is denied exactly for every netapp product, oracle's zfs_storage_appliance_kit and gradle's enterprise, matching both the `{vendor, ""}` and the `{vendor, product}` lookups |
| RepoCache.MaybeUpdate | vulnfeeds/cpp/main.go:410-418 | no change for a nil key or a repository already listed; otherwise the repository ends up listed, the old entry is a prefix of the new one, which is at most one longer; other keys untouched; no empty or duplicated entry arises |
| RepoCache.RemoveAt | vulnfeeds/cpp/main.go:441-442 | deleting one element of a duplicate-free entry keeps it duplicate-free, keeps only elements of the entry, and drops the deleted value |
| RepoCache.MaybeRemove | vulnfeeds/cpp/main.go:421-443 | no-op for a nil key, an absent key or an unlisted URL; a one-URL entry loses its key; otherwise the first occurrence alone is cut out with the rest kept in order; other keys untouched; for a well-formed cache, the URL is gone afterwards |
| Seqs.Dedup | vulnfeeds/cpp/main.go:217-220 | the de-duplicated sequence has no duplicates and the same elements as its input |
| Seqs.DedupKeepsFirstOccurrenceOrder | vulnfeeds/cpp/main.go:217-220 | de-duplication keeps elements in the order of their first occurrence |
| Seqs.AppendMissing | vulnfeeds/cpp/main.go:547-552 | appending the missing elements extends the accumulator, contains both inputs' elements only, and keeps a duplicate-free accumulator duplicate-free |
| Seqs.AppendMissingDedups | vulnfeeds/cpp/main.go:547-552 | appending what is missing to a duplicate-free list equals de-duplicating the concatenation |
| Mining.RefAcceptable | vulnfeeds/cpp/main.go:187-194 | a reference is acceptable exactly when none of the denied tags is among its tags |
| Mining.FirstDenied | vulnfeeds/cpp/main.go:204-211 | the index where the reference loop stops: every earlier reference is acceptable and the one there (if any) is not |
| Mining.MineReferencesExact | vulnfeeds/cpp/main.go:204-221 | the reference loop (`Mining.MineReferences`), started from the de-duplicated candidates of the references already walked, returns the de-duplicated candidates of those plus every reference before the first denied one, and leaves the cache as the write-through and raw-URL retraction describe; with a nil key the cache is untouched |
| Mining.CandidateReposMembers | vulnfeeds/cpp/main.go:212-221 | a repository is among the candidates exactly when some reference's URL parses to it and it is valid |
| Mining.MinedRepoIff | vulnfeeds/cpp/main.go:204-226 | on a miss, a repository is returned exactly when an acceptable reference before the first denied one parses to it and it is valid |
| Mining.ReposFromReferences | vulnfeeds/cpp/main.go:197-227 | a hit returns the cached list and leaves the cache alone; a miss returns the de-duplicated, first-seen-ordered valid repositories of the references before the first denied one, writes them to the key's entry and then retracts the denied reference's raw URL; a nil key leaves the cache alone; a well-formed cache stays well formed |
| Mining.MinedReposAreCached | vulnfeeds/cpp/main.go:204-226 | after a miss only the mined key changes; its entry lists returned repositories only; every returned repository is in it except the denied reference's raw URL, which is not |
| Mining.CacheHitIgnoresReferences | vulnfeeds/cpp/main.go:199-203 | on a hit the result does not depend on the references, the deny list or the collaborators, so no reference is inspected |
| Mining.AcceptedThenDenied | vulnfeeds/cpp/main.go:204-226 | an acceptable reference into repository r followed by a denied one yields exactly [r], and the cache entry is [r] with the denied reference's URL then retracted |
| Mining.DeniedReferenceRepoCanSurvive | vulnfeeds/cpp/main.go:206-212 | a repository whose later reference is denied is still returned when an earlier reference was accepted, while its cache entry is deleted |
| Mining.RawUrlRetractionMissesRepo | vulnfeeds/cpp/main.go:208 | a denied reference whose URL differs from the repository it normalises to leaves that repository cached |
| Resolver.ResolveEntry | vulnfeeds/cpp/main.go:146-181 | for one range and repository: the textual ranges are unchanged and commits only appended; each is derived by VersionToCommit from the range's boundary of its kind on that repository; no Fixed or LastAffected commit follows a Fixed one of the repository; a resolving introduced boundary is recorded; a resolving fixed boundary leaves the repository with a Fixed commit |
| Resolver.ResolveEntryRecordsLastAffected | vulnfeeds/cpp/main.go:159-180 | a resolving last-affected boundary is recorded as a LastAffected commit of the repository unless the repository had a Fixed commit before the range or the range's own fixed boundary resolves (its Fixed commit is appended first) |
| Resolver.FixedAfterEntry | vulnfeeds/cpp/main.go:159-169 | after one range the repository has a Fixed commit only if it had one before or the range's own fixed boundary resolves |
| Resolver.ResolveEntryShape | vulnfeeds/cpp/main.go:146-181 | one range appends at most one commit of each kind, in the order introduced, fixed, last-affected; when the range's own fixed boundary resolves it appends no LastAffected commit |
| Resolver.LastAffectedOnlyUnfixedEntry | vulnfeeds/cpp/main.go:159-180 | a LastAffected commit one range appends is its last-affected boundary's commit, on a repository with no Fixed commit before the range and whose fixed boundary in the range does not resolve |
| Resolver.ResolveEntries | vulnfeeds/cpp/main.go:146-182 | over all ranges for one repository: commits only appended, each derived from one of the ranges on that repository, and the Fixed-suppresses-later rule kept |
| Resolver.ResolveRepos | vulnfeeds/cpp/main.go:140-183 | over all repositories: commits only appended; each belongs to a candidate repository whose tags normalised and was derived with those tags; a repository whose tags fail to normalise contributes nothing |
| Resolver.GitVersionsToCommits | vulnfeeds/cpp/main.go:136-185 | resolution cannot fail, keeps the affected versions, keeps the input commits as a prefix, appends only justified commits, and appends no Fixed or LastAffected commit after a Fixed commit of the same repository |
| Resolver.HasFixedCommitsMonotone | vulnfeeds/cpp/main.go:159 | a repository's Fixed commit survives appending further commits |
| Resolver.PreexistingFixSuppresses | vulnfeeds/cpp/main.go:159-173 | a repository that already has a Fixed commit gains only Introduced commits |
| Resolver.IntroducedRecorded | vulnfeeds/cpp/main.go:147-155 | every introduced boundary that resolves on a repository whose tags normalise is recorded as an Introduced commit of that repository |
| Resolver.FixedFound | vulnfeeds/cpp/main.go:159-168 | a fixed boundary that resolves on a candidate repository leaves that repository with a Fixed commit |
| Resolver.LastAffectedRecorded | vulnfeeds/cpp/main.go:140-181 | the last-affected boundary of range k that resolves on a candidate repository whose tags normalise is recorded, unless the repository had a Fixed commit before resolution or the fixed boundary of range k or of an earlier range resolves on it; a fix from a later range does not suppress it |
| Resolver.LastAffectedOnlyUnfixed | vulnfeeds/cpp/main.go:140-183 | every LastAffected commit the loops append belongs to a repository whose tags normalise, which had no Fixed commit before resolution, and is the commit of the last-affected boundary of some range k while no fixed boundary of range k or an earlier range resolves there |
| Resolver.LastAffectedOnlyIfUnfixed | vulnfeeds/cpp/main.go:136-185 | the converse of `Resolver.LastAffectedRecorded` for `GitVersionsToCommits`: an appended LastAffected commit belongs to a candidate repository and arises only as LastAffectedOnlyUnfixed describes |
| Resolver.ResolvesNothingIff | vulnfeeds/cpp/main.go:136-185 | resolution leaves the commit list empty exactly when it was empty and no boundary resolves, with its own kind, on any candidate repository whose tags normalise |
| Resolver.FixedCommitIff | vulnfeeds/cpp/main.go:136-185 | after resolution a repository has a Fixed commit exactly when it had one before or one of its fixed boundaries resolves on it |
| Emitters.AnyFixedIff | vulnfeeds/cpp/main.go:261-266 | the `hasAnyFixedCommits` loop (`Emitters.AnyRepoHasFixedCommits`) after resolution succeeds exactly when some candidate repository had a Fixed commit or has a resolving fixed boundary |
| Emitters.ResolvedCommitsEmptyIff | vulnfeeds/cpp/main.go:328-356 | the commit list the PackageInfo emitter tests is empty exactly when no commit was extracted and no boundary resolves to one |
| Emitters.CVEToPackageInfo | vulnfeeds/cpp/main.go:311-358 | each outcome exactly when the earlier gates pass and its own condition holds, in order: the invalid-CPE error exactly when the first CPE does not parse; the "no repos" error when there are versions and no repositories; ErrUnresolvedFix when there are fixed versions and repositories but none ends with a Fixed commit; ErrNoRanges when no commit is extracted or derivable; success exactly when, besides, writing succeeds, with the versions cleared and a non-empty commit list extending the extracted one |
| Emitters.CVEToOSV | vulnfeeds/cpp/main.go:230-279 | the same first three gates as CVEToPackageInfo; ErrNoRanges exactly when they pass and the resolved versions build no range; success exactly when, besides, writing succeeds, with the extracted versions extended |
| Emitters.EmittersAgreeOnUnresolvedFix | vulnfeeds/cpp/main.go:268-270 | both emitters report ErrUnresolvedFix on exactly the same inputs (this test and the identical one at lines 350-352 of the same file) |
| Emitters.OutcomeOf | vulnfeeds/cpp/main.go:630-644 | Successful exactly on success, NoRanges exactly for ErrNoRanges, FixUnresolvable exactly for ErrUnresolvedFix, and never an outcome that belongs to an earlier gate |
| Classifier.ScanCPEs | vulnfeeds/cpp/main.go:529-554 | the application count is zero exactly when no CPE parses with part "a"; the CVE's entry exists afterwards exactly when it existed or some parsed CPE's vendor/product is cached; it then lists exactly the repositories it had plus those cached for any parsed CPE's vendor/product; an existing entry is only extended, and stays duplicate-free over a well-formed cache |
| Classifier.MineStep | vulnfeeds/cpp/main.go:568-591 | an ineligible CPE changes nothing; an eligible one changes the cache only at its vendor/product; the entry is kept or replaced by a non-empty list; a well-formed cache stays well formed |
| Classifier.MineCPEs | vulnfeeds/cpp/main.go:567-592 | the cache changes only at the vendor/products of eligible CPEs; the entry is kept or replaced by a non-empty list; with no eligible CPE nothing changes |
| Classifier.MineCPEsSnoc | vulnfeeds/cpp/main.go:568-591 | the mining loop over one more CPE is the loop so far followed by one more step |
| Classifier.LastMinedCPEWins | vulnfeeds/cpp/main.go:584-590 | the last eligible CPE with a non-empty derivation sets the CVE's repositories, overwriting what earlier CPEs derived; an empty derivation keeps them |
| Classifier.ProcessCVE | vulnfeeds/cpp/main.go:506-645 | one CVE keeps the cache well formed, changes it only at vendor/products eligible for mining, and touches the outcome and repositories of its own ID only |
| Classifier.OutcomeGates | vulnfeeds/cpp/main.go:511-644 | no references and no CPEs gives Rejected and nothing else; references only, with no derivable repository, changes nothing and records no outcome; CPEs none of which is an application gives NoSoftware with the cache unchanged; with an application CPE an outcome is recorded, NoRepos exactly when no repositories were found, else the mapped result of the emitter the output format selects (`Classifier.Emit`) |
| Classifier.NoReposIff | vulnfeeds/cpp/main.go:566-610 | a CVE with an application CPE ends as NoRepos exactly when it has no repositories yet, none of its parsed vendor/products is cached, and there are no references, the references before the first denied one yield no valid repository, or no CPE is eligible for mining |
| Classifier.SoftwareReachesEmitter | vulnfeeds/cpp/main.go:529-610 | a CVE with an application CPE gets repositories exactly when it had some, one of its vendor/products is cached, or it has references and the mining loop finds some |
| Classifier.MiningFindsIff | vulnfeeds/cpp/main.go:567-592 | with no CPE cached at the start, the mining loop gives the CVE repositories exactly when the references yield candidates and some CPE is eligible |
| Classifier.MineCPEsWithinMined | vulnfeeds/cpp/main.go:567-592 | with no eligible CPE cached at the start, the CVE's entry and every cache entry the loop writes list only the de-duplicated candidates of the references before the first denied one |
| Classifier.MinedReposAreCandidates | vulnfeeds/cpp/main.go:566-627 | on the mining path the emitter is given only repositories derived from the references before the first denied one |
| Classifier.CachedReposReachEmitter | vulnfeeds/cpp/main.go:529-627 | off the mining path the cache is unchanged and the emitter is given exactly the repositories the CVE had plus those cached for its parsed vendor/products |
| Classifier.MiningPathWritesThrough | vulnfeeds/cpp/main.go:566-644 | on the mining path the CVE leaves exactly the cache the mining loop leaves, which later CVEs see, takes the loop's entry as its repositories, and is emitted with it or recorded NoRepos without it |
| Classifier.MineOneReference | vulnfeeds/cpp/main.go:568-591 | mining one acceptable reference for an eligible, uncached CPE writes `[repository]` to the cache at its vendor/product and gives the CVE that entry |
| Classifier.SingleCachedCPE | vulnfeeds/cpp/main.go:529-627 | a CVE whose one CPE is a cached application CPE is emitted with exactly the cached entry and leaves the cache alone |
| Classifier.MinedReposServeLaterCVE | vulnfeeds/cpp/main.go:506-645 | over the feed, a repository mined for one CVE is cached under its vendor/product and a later CVE with the same CPE and no references is emitted with it |
| Classifier.ReferencesAloneReachEmitter | vulnfeeds/cpp/main.go:518-527 | a CVE without CPEs whose references yield repositories is emitted with exactly those repositories and leaves the cache alone |
| Classifier.CachedRepositoriesSkipMining | vulnfeeds/cpp/main.go:566-567 | the cache is unchanged when the CVE has no CPEs, already has repositories, or has a CPE whose vendor/product is cached |
| Classifier.DeniedFirstReferenceMinesNothing | vulnfeeds/cpp/main.go:568-591 | with no CPE cached and a denied first reference, the mining loop changes nothing |
| Classifier.DeniedFirstReferenceIsNoRepos | vulnfeeds/cpp/main.go:606-610 | a software CVE with no cached vendor/product, no repositories yet and a denied first reference ends as NoRepos with the cache unchanged |
| Classifier.RunKeepsCacheWellFormed | vulnfeeds/cpp/main.go:506-645 | the run over the feed (`Classifier.ProcessAll`) keeps the cache free of empty and duplicated entries |
| Classifier.RunTouchesOnlyFeedIds | vulnfeeds/cpp/main.go:506-645 | an ID that no processed CVE carries keeps its outcome and repositories |
| Classifier.RunChangesCacheOnlyAtEligibleKeys | vulnfeeds/cpp/main.go:506-645 | a vendor/product that no processed CVE makes eligible for mining keeps its cache entry |

## Left out

- File and JSON I/O are not modelled. This covers reading the feed,
  `loadCPEDictionary`, creating directories and files, JSON encoding, notes
  files and the `outputOutcomes` CSV writer. Whether writing a CVE's record
  succeeds is one boolean per CVE ID (`Classifier.Config.writeSucceeds`).
- Flag parsing is not modelled. The output format is an enumeration, because
  `main` exits on any other value.
- `Logger` is not modelled: it only reports.
- The `Metrics` counters are not modelled: they only count. The outcome map
  is the `outcomes` field of the run state.
- `InScopeRepo`, `InScopeGitHubRepo` and `InScopeGitRepo` are not modelled.
  The loop that calls them has no effect.
- The `cves`, `git` and `vulns` packages are not part of this model. Repository
  URL parsing, repository validity, tag normalisation, version-to-commit
  matching, CPE parsing and range building are uninterpreted parameters.
  `cves.ExtractVersionInfo`'s result is a field of the CVE record.
- The `RepoTagsCache` is not modelled. Tag normalisation is a pure function
  of the repository.
- Output paths are not modelled. This covers the `ENOCPE` defaults, the
  vendor/product subdirectory and the file names.
- The notes returned by `vulns.FromCVE` and `cves.ExtractVersionInfo` are not
  modelled.
- Emitters.CVEToOSV: assumes that `cves.ParseCPE` returns a CPE value whose
  vendor and product can be read even when it fails. The emitter reads them
  before testing the error, so with a nil result Go would panic instead of
  returning the invalid-CPE error that maps to ConversionUnknown.
- Emitters.CVEToPackageInfo: makes the same assumption about `cves.ParseCPE`,
  which it also reads before testing the error.
- Cves.HasFixedCommits: `VersionInfo.HasFixedCommits` is not part of this
  model. It is assumed to hold exactly when some recorded commit names the
  repository (by exact string equality) with kind Fixed, and so to be
  monotone as commits are appended. `Resolver.FixedCommitIff`,
  `Emitters.AnyFixedIff` and the unresolved-fix gates rest on this
  assumption.
- Cves.HasFixedVersions: `VersionInfo.HasFixedVersions` is assumed to hold
  exactly when some affected range has a non-empty fixed boundary.
- Resolver.GitVersionsToCommits: assumes `git.VersionToCommit` returns a
  commit of the requested kind and repository. The model records the
  returned hash with that kind and repository.
- Emitters.CVEToOSV: assumes `vulns.FromCVE` returns a record with no affected
  entries, so the one appended is the one whose ranges are counted.
- Emitters.CVEToOSV: the emitters' error branch after `GitVersionsToCommits`
  is not modelled, because that function always returns a nil error.
- Emitters.CVEToPackageInfo: the same error branch is not modelled, for the
  same reason.
- Go slice aliasing between `ReposForCVE` and the cache is not modelled; the
  model uses value semantics. In Go, an entry copied from the cache and later
  appended to may share its backing array with the cache entry.
- The cache preloaded from the CPE dictionary may hold empty or duplicated
  entries. The model accepts any cache. Well-formedness (every entry
  non-empty and duplicate-free) is a hypothesis only of the preservation
  results.

=== FILE: classifier.dfy ===
/** The per-CVE classification of the main loop: the gate sequence that
    assigns each feed item its outcome, the vendor/product cache lookups and
    reference mining it drives, and the run over the whole feed. */
module Classifier {
  import opened Wrappers
  import opened Seqs
  import opened VendorProducts
  import opened ScopeFilters
  import opened RepoCache
  import opened Cves
  import opened Mining
  import opened Emitters
  import opened Outcomes

  datatype OutputFormat = OSV | PackageInfo

  /** The run's fixed inputs: the collaborators, the output format and,
      per CVE ID, whether writing that CVE's record succeeds. */
  datatype Config = Config(col: Collaborators, format: OutputFormat, writeSucceeds: string -> bool)

  /** What one CVE leaves for the next: the vendor/product cache, the
      repositories derived per CVE ID, and the outcome recorded per CVE ID. */
  datatype RunState = RunState(cache: RepoMap, reposForCVE: map<string, seq<string>>, outcomes: map<string, Outcome>)

  function Lookup<K, V>(m: map<K, V>, k: K): Option<V>
  {
    if k in m then Some(m[k]) else None
  }

  /** Sets `m[k]` when `e` holds a value; leaves `m` alone otherwise. */
  function Store<K, V>(m: map<K, V>, k: K, e: Option<V>): map<K, V>
  {
    if e.Some? then m[k := e.value] else m
  }

  /** The vendor/product of a CPE string that parses. */
  function KeyOf(s: string, col: Collaborators): VendorProduct
    requires col.parseCPE(s).Some?
  {
    VendorProduct(col.parseCPE(s).value.vendor, col.parseCPE(s).value.product)
  }

  /** The CPE parses and its vendor/product is cached. */
  predicate CachedCPE(s: string, cache: RepoMap, col: Collaborators)
  {
    col.parseCPE(s).Some? && KeyOf(s, col) in cache
  }

  /** The CPE is one the main loop mines references for: an application
      CPE whose vendor and vendor/product are both off the deny list. */
  predicate MiningEligible(s: string, col: Collaborators)
  {
    IsApplicationCPE(s, col) && !VendorProductDenied(KeyOf(s, col).vendor, KeyOf(s, col).product)
  }

  /** The cache keys mining may touch for these CPEs. */
  ghost function EligibleKeys(cpes: seq<string>, col: Collaborators): set<VendorProduct>
  {
    set i | 0 <= i < |cpes| && MiningEligible(cpes[i], col) :: KeyOf(cpes[i], col)
  }

  /** `r` agrees with `c` outside `keys`. */
  ghost predicate ChangedOnlyAt(c: RepoMap, r: RepoMap, keys: set<VendorProduct>)
  {
    forall k :: k !in keys ==> (k in c <==> k in r) && (k in c ==> c[k] == r[k])
  }

  /** The emitter the output format selects. */
  function Emit(cfg: Config, cve: CVEItem, repos: seq<string>): Result<VersionInfo, EmitError>
  {
    match cfg.format
    case OSV => CVEToOSV(cve, repos, cfg.col, cfg.writeSucceeds(cve.id))
    case PackageInfo => CVEToPackageInfo(cve, repos, cfg.col, cfg.writeSucceeds(cve.id))
  }

  /** `x` is cached for the vendor/product of one of the CPEs. */
  ghost predicate FromCachedCPE(x: string, cpes: seq<string>, cache: RepoMap, col: Collaborators)
  {
    exists i :: 0 <= i < |cpes| && CachedCPE(cpes[i], cache, col) && x in cache[KeyOf(cpes[i], col)]
  }

  lemma FromCachedCPECons(cpes: seq<string>, cache: RepoMap, col: Collaborators)
    requires cpes != []
    ensures forall x :: FromCachedCPE(x, cpes, cache, col) <==>
      (CachedCPE(cpes[0], cache, col) && x in cache[KeyOf(cpes[0], col)]) || FromCachedCPE(x, cpes[1..], cache, col)
  {
    forall x
      ensures FromCachedCPE(x, cpes, cache, col) <==>
        (CachedCPE(cpes[0], cache, col) && x in cache[KeyOf(cpes[0], col)]) || FromCachedCPE(x, cpes[1..], cache, col)
    {
      if FromCachedCPE(x, cpes, cache, col) {
        var i :| 0 <= i < |cpes| && CachedCPE(cpes[i], cache, col) && x in cache[KeyOf(cpes[i], col)];
        if i > 0 {
          assert cpes[1..][i - 1] == cpes[i];
        }
      }
      if FromCachedCPE(x, cpes[1..], cache, col) {
        var i :| 0 <= i < |cpes[1..]| && CachedCPE(cpes[1..][i], cache, col) && x in cache[KeyOf(cpes[1..][i], col)];
        assert cpes[1..][i] == cpes[i + 1];
      }
    }
  }

  /** The state of the first CPE loop: the CVE's repository entry, the
      application CPE count, and whether a CPE failed to parse. */
  datatype CPEScan = CPEScan(entry: Option<seq<string>>, appCount: nat, parseFailed: bool)

  /** The first CPE loop: counts application CPEs and, for every CPE that
      parses (application or not), merges the cached repositories of its
      vendor/product into the CVE's entry without duplicates. */
  function ScanCPEs(cache: RepoMap, cpes: seq<string>, col: Collaborators, sc: CPEScan): (r: CPEScan)
    ensures r.appCount == 0 <==> sc.appCount == 0 && forall i :: 0 <= i < |cpes| ==> !IsApplicationCPE(cpes[i], col)
    ensures r.entry.Some? <==> sc.entry.Some? || exists i :: 0 <= i < |cpes| && CachedCPE(cpes[i], cache, col)
    ensures sc.entry.Some? ==> sc.entry.value <= r.entry.value
    ensures r.entry.Some? ==> forall x :: x in r.entry.value <==>
      (sc.entry.Some? && x in sc.entry.value) || FromCachedCPE(x, cpes, cache, col)
    ensures WellFormed(cache) && (sc.entry.Some? ==> NoDuplicates(sc.entry.value)) && r.entry.Some? ==>
      NoDuplicates(r.entry.value)
    decreases |cpes|
  {
    if cpes == [] then sc
    else
      var next :=
        match col.parseCPE(cpes[0])
        case None => sc.(parseFailed := true)
        case Some(cpe) =>
          var n := if cpe.part == "a" then sc.appCount + 1 else sc.appCount;
          var vp := VendorProduct(cpe.vendor, cpe.product);
          var e := if vp !in cache then sc.entry
                   else if sc.entry.None? then Some(cache[vp])
                   else Some(AppendMissing(sc.entry.value, cache[vp]));
          CPEScan(e, n, sc.parseFailed);
      var r := ScanCPEs(cache, cpes[1..], col, next);
      assert forall i :: 0 <= i < |cpes| - 1 ==> cpes[1..][i] == cpes[i + 1];
      FromCachedCPECons(cpes, cache, col);
      r
  }

  /** The mining loop's state: the cache and the CVE's repository entry. */
  datatype CPEMining = CPEMining(cache: RepoMap, entry: Option<seq<string>>)

  /** Mining leaves the cache alone except at the mined vendor/product. */
  lemma MiningFrame(cache: RepoMap, vp: VendorProduct, refs: seq<Reference>, col: Collaborators)
    ensures SameElsewhere(cache, ReposFromReferences(cache, Some(vp), refs, RefTagDenyList, col).cache, Some(vp))
  {
    if vp !in cache {
      MinedReposAreCached(cache, vp, refs, RefTagDenyList, col);
    }
  }

  /** One iteration of the mining loop: an eligible CPE has the references
      mined for its vendor/product, and a non-empty result replaces the
      CVE's entry. */
  function MineStep(st: CPEMining, s: string, refs: seq<Reference>, col: Collaborators): (r: CPEMining)
    ensures !MiningEligible(s, col) ==> r == st
    ensures MiningEligible(s, col) ==> ChangedOnlyAt(st.cache, r.cache, {KeyOf(s, col)})
    ensures WellFormed(st.cache) ==> WellFormed(r.cache)
    ensures r.entry == st.entry || (r.entry.Some? && r.entry.value != [])
  {
    if !MiningEligible(s, col) then st
    else
      var vp := KeyOf(s, col);
      var m := ReposFromReferences(st.cache, Some(vp), refs, RefTagDenyList, col);
      MiningFrame(st.cache, vp, refs, col);
      CPEMining(m.cache, if m.repos == [] then st.entry else Some(m.repos))
  }

  lemma EligibleKeysCons(cpes: seq<string>, col: Collaborators)
    requires cpes != []
    ensures EligibleKeys(cpes[1..], col) <= EligibleKeys(cpes, col)
    ensures MiningEligible(cpes[0], col) ==> KeyOf(cpes[0], col) in EligibleKeys(cpes, col)
  {
    forall k | k in EligibleKeys(cpes[1..], col) ensures k in EligibleKeys(cpes, col) {
      var i :| 0 <= i < |cpes[1..]| && MiningEligible(cpes[1..][i], col) && KeyOf(cpes[1..][i], col) == k;
      assert cpes[1..][i] == cpes[i + 1];
    }
  }

  /** The mining loop over the CVE's CPEs, in order. */
  function MineCPEs(st: CPEMining, cpes: seq<string>, refs: seq<Reference>, col: Collaborators): (r: CPEMining)
    ensures ChangedOnlyAt(st.cache, r.cache, EligibleKeys(cpes, col))
    ensures WellFormed(st.cache) ==> WellFormed(r.cache)
    ensures r.entry == st.entry || (r.entry.Some? && r.entry.value != [])
    ensures (forall i :: 0 <= i < |cpes| ==> !MiningEligible(cpes[i], col)) ==> r == st
    decreases |cpes|
  {
    if cpes == [] then st
    else
      var r := MineCPEs(MineStep(st, cpes[0], refs, col), cpes[1..], refs, col);
      EligibleKeysCons(cpes, col);
      assert forall i :: 0 <= i < |cpes| - 1 ==> cpes[1..][i] == cpes[i + 1];
      r
  }

  lemma {:induction false} MineCPEsSnoc(st: CPEMining, cpes: seq<string>, s: string, refs: seq<Reference>,
                                        col: Collaborators)
    ensures MineCPEs(st, cpes + [s], refs, col) == MineStep(MineCPEs(st, cpes, refs, col), s, refs, col)
    decreases |cpes|
  {
    if cpes == [] {
      assert [] + [s] == [s];
    } else {
      assert (cpes + [s])[1..] == cpes[1..] + [s];
      MineCPEsSnoc(MineStep(st, cpes[0], refs, col), cpes[1..], s, refs, col);
    }
  }

  /** The last eligible CPE whose mining yields repositories decides the
      CVE's entry: what earlier CPEs mined is overwritten, not merged. */
  lemma LastMinedCPEWins(st: CPEMining, cpes: seq<string>, s: string, refs: seq<Reference>, col: Collaborators)
    requires MiningEligible(s, col)
    ensures var before := MineCPEs(st, cpes, refs, col);
      var m := ReposFromReferences(before.cache, Some(KeyOf(s, col)), refs, RefTagDenyList, col);
      var after := MineCPEs(st, cpes + [s], refs, col);
      && after.cache == m.cache
      && (m.repos != [] ==> after.entry == Some(m.repos))
      && (m.repos == [] ==> after.entry == before.entry)
  {
    MineCPEsSnoc(st, cpes, s, refs, col);
  }

  /** The repositories a CVE without CPEs yields from its references alone
      (nothing is cached, as there is no vendor/product). */
  function NoCPERepos(cve: CVEItem, col: Collaborators): seq<string>
  {
    ReposFromReferences(map[], None, cve.references, RefTagDenyList, col).repos
  }

  /** One iteration of the main loop. Its gates, in order: no references
      and no CPEs is Rejected; no CPEs and no repositories from the
      references drops the CVE without an outcome; a CPE that fails to parse
      records ConversionUnknown provisionally; CPEs none of which is an
      application is NoSoftware; with no repository from the cache, the
      references are mined per eligible CPE; still none is NoRepos;
      otherwise the emitter's result decides the outcome. */
  function ProcessCVE(s: RunState, cve: CVEItem, cfg: Config): (r: RunState)
    ensures WellFormed(s.cache) ==> WellFormed(r.cache)
    ensures ChangedOnlyAt(s.cache, r.cache, EligibleKeys(cve.cpes, cfg.col))
    ensures forall k :: k != cve.id ==> Lookup(r.outcomes, k) == Lookup(s.outcomes, k)
    ensures forall k :: k != cve.id ==> Lookup(r.reposForCVE, k) == Lookup(s.reposForCVE, k)
  {
    var id, refs, cpes, col := cve.id, cve.references, cve.cpes, cfg.col;
    if |refs| == 0 && |cpes| == 0 then
      s.(outcomes := s.outcomes[id := Rejected])
    else if |cpes| == 0 && NoCPERepos(cve, col) == [] then
      s
    else
      var repos0 := if |cpes| == 0 then s.reposForCVE[id := NoCPERepos(cve, col)] else s.reposForCVE;
      var scan := ScanCPEs(s.cache, cpes, col, CPEScan(Lookup(repos0, id), 0, false));
      var repos1 := Store(repos0, id, scan.entry);
      var outcomes1 := if scan.parseFailed then s.outcomes[id := ConversionUnknown] else s.outcomes;
      if |cpes| > 0 && scan.appCount == 0 then
        RunState(s.cache, repos1, outcomes1[id := NoSoftware])
      else
        var mined :=
          if id !in repos1 && |refs| > 0 then MineCPEs(CPEMining(s.cache, None), cpes, refs, col)
          else CPEMining(s.cache, None);
        var repos2 := Store(repos1, id, mined.entry);
        var outcome := if id in repos2 then OutcomeOf(Emit(cfg, cve, repos2[id])) else NoRepos;
        RunState(mined.cache, repos2, outcomes1[id := outcome])
  }

  /** The main loop over the feed, in order. */
  function ProcessAll(s: RunState, cves: seq<CVEItem>, cfg: Config): RunState
    decreases |cves|
  {
    if cves == [] then s else ProcessAll(ProcessCVE(s, cves[0], cfg), cves[1..], cfg)
  }

  /** The outcome each gate of the main loop assigns. */
  lemma OutcomeGates(s: RunState, cve: CVEItem, cfg: Config)
    ensures var r := ProcessCVE(s, cve, cfg);
      var refs, cpes, col := cve.references, cve.cpes, cfg.col;
      && (refs == [] && cpes == [] ==> r == s.(outcomes := s.outcomes[cve.id := Rejected]))
      && (refs != [] && cpes == [] && Dedup(CandidateRepos(refs[..FirstDenied(refs, RefTagDenyList)], col)) == [] ==>
            r == s)
      && (cpes != [] && (forall i :: 0 <= i < |cpes| ==> !IsApplicationCPE(cpes[i], col)) ==>
            r.cache == s.cache && Lookup(r.outcomes, cve.id) == Some(NoSoftware))
      && ((exists i :: 0 <= i < |cpes| && IsApplicationCPE(cpes[i], col)) ==>
            && cve.id in r.outcomes
            && (r.outcomes[cve.id] == NoRepos <==> cve.id !in r.reposForCVE)
            && (cve.id in r.reposForCVE ==> r.outcomes[cve.id] == OutcomeOf(Emit(cfg, cve, r.reposForCVE[cve.id]))))
  {
  }

  /** A CVE with no CPEs whose references yield repositories goes straight
      to the emitter with exactly those repositories. */
  lemma ReferencesAloneReachEmitter(s: RunState, cve: CVEItem, cfg: Config)
    requires cve.cpes == []
    requires NoCPERepos(cve, cfg.col) != []
    ensures var r := ProcessCVE(s, cve, cfg);
      && r.cache == s.cache
      && Lookup(r.reposForCVE, cve.id) == Some(NoCPERepos(cve, cfg.col))
      && Lookup(r.outcomes, cve.id) == Some(OutcomeOf(Emit(cfg, cve, NoCPERepos(cve, cfg.col))))
  {
  }

  /** References are mined, and so the cache can change, only for a CVE
      that has CPEs, none of whose vendor/products is cached, and which has
      no repositories yet. */
  lemma CachedRepositoriesSkipMining(s: RunState, cve: CVEItem, cfg: Config)
    requires || cve.cpes == []
             || cve.id in s.reposForCVE
             || exists i :: 0 <= i < |cve.cpes| && CachedCPE(cve.cpes[i], s.cache, cfg.col)
    ensures ProcessCVE(s, cve, cfg).cache == s.cache
  {
  }

  /** With no CPE cached, a first reference carrying a denied tag leaves
      nothing to mine: every eligible CPE misses, yields nothing, and leaves
      the cache as it was. */
  lemma {:induction false} DeniedFirstReferenceMinesNothing(st: CPEMining, cpes: seq<string>, refs: seq<Reference>,
                                                          col: Collaborators)
    requires refs != [] && !RefAcceptable(refs[0], RefTagDenyList)
    requires forall i :: 0 <= i < |cpes| ==> !CachedCPE(cpes[i], st.cache, col)
    ensures MineCPEs(st, cpes, refs, col) == st
    decreases |cpes|
  {
    if cpes != [] {
      if MiningEligible(cpes[0], col) {
        var vp := KeyOf(cpes[0], col);
        assert FirstDenied(refs, RefTagDenyList) == 0;
        assert CandidateRepos(refs[..0], col) == [];
        assert MaybeRemove(st.cache, Some(vp), refs[0].url) == st.cache;
      }
      assert MineStep(st, cpes[0], refs, col) == st;
      assert forall i :: 0 <= i < |cpes| - 1 ==> cpes[1..][i] == cpes[i + 1];
      DeniedFirstReferenceMinesNothing(st, cpes[1..], refs, col);
    }
  }

  /** A software CVE with no cached vendor/product, no repositories yet and
      a denied first reference ends as NoRepos, leaving the cache alone. */
  lemma DeniedFirstReferenceIsNoRepos(s: RunState, cve: CVEItem, cfg: Config)
    requires cve.references != [] && !RefAcceptable(cve.references[0], RefTagDenyList)
    requires exists i :: 0 <= i < |cve.cpes| && IsApplicationCPE(cve.cpes[i], cfg.col)
    requires forall i :: 0 <= i < |cve.cpes| ==> !CachedCPE(cve.cpes[i], s.cache, cfg.col)
    requires cve.id !in s.reposForCVE
    ensures var r := ProcessCVE(s, cve, cfg);
      r.cache == s.cache && cve.id !in r.reposForCVE && Lookup(r.outcomes, cve.id) == Some(NoRepos)
  {
    DeniedFirstReferenceMinesNothing(CPEMining(s.cache, None), cve.cpes, cve.references, cfg.col);
  }

  /** The repositories mining the references yields on a cache miss: the
      de-duplicated candidates of the references before the first denied one. */
  function MinedCandidates(refs: seq<Reference>, col: Collaborators): seq<string>
  {
    Dedup(CandidateRepos(refs[..FirstDenied(refs, RefTagDenyList)], col))
  }

  /** Everything the mining loop holds outside the cache it started from
      (the CVE's entry, and the entries it wrote) lists mined candidates only. */
  ghost predicate WithinMined(st: CPEMining, c0: RepoMap, refs: seq<Reference>, col: Collaborators)
  {
    && (st.entry.Some? ==> forall x :: x in st.entry.value ==> x in MinedCandidates(refs, col))
    && (forall k :: k in st.cache && k !in c0 ==> forall x :: x in st.cache[k] ==> x in MinedCandidates(refs, col))
  }

  lemma MineStepWithinMined(st: CPEMining, c0: RepoMap, s: string, refs: seq<Reference>, col: Collaborators)
    requires WithinMined(st, c0, refs, col)
    requires MiningEligible(s, col) ==> KeyOf(s, col) !in c0
    ensures WithinMined(MineStep(st, s, refs, col), c0, refs, col)
  {
    if MiningEligible(s, col) {
      var vp := KeyOf(s, col);
      if vp !in st.cache {
        MinedReposAreCached(st.cache, vp, refs, RefTagDenyList, col);
      }
    }
  }

  /** With no eligible CPE cached when mining starts, mining leaves the CVE's
      entry listing mined candidates only. */
  lemma {:induction false} MineCPEsWithinMined(st: CPEMining, c0: RepoMap, cpes: seq<string>, refs: seq<Reference>,
                                               col: Collaborators)
    requires WithinMined(st, c0, refs, col)
    requires forall i :: 0 <= i < |cpes| && MiningEligible(cpes[i], col) ==> KeyOf(cpes[i], col) !in c0
    ensures WithinMined(MineCPEs(st, cpes, refs, col), c0, refs, col)
    decreases |cpes|
  {
    if cpes != [] {
      MineStepWithinMined(st, c0, cpes[0], refs, col);
      assert forall i :: 0 <= i < |cpes| - 1 ==> cpes[1..][i] == cpes[i + 1];
      MineCPEsWithinMined(MineStep(st, cpes[0], refs, col), c0, cpes[1..], refs, col);
    }
  }

  /** With candidates to mine and an eligible CPE none of whose
      vendor/products is cached yet, mining gives the CVE an entry. */
  lemma {:induction false} MineCPEsFindsCandidates(st: CPEMining, cpes: seq<string>, refs: seq<Reference>,
                                                   col: Collaborators)
    requires MinedCandidates(refs, col) != []
    requires exists i :: 0 <= i < |cpes| && MiningEligible(cpes[i], col)
    requires forall i :: 0 <= i < |cpes| && MiningEligible(cpes[i], col) ==> KeyOf(cpes[i], col) !in st.cache
    ensures MineCPEs(st, cpes, refs, col).entry.Some?
    decreases |cpes|
  {
    var next := MineStep(st, cpes[0], refs, col);
    if MiningEligible(cpes[0], col) {
      assert next.entry == Some(MinedCandidates(refs, col));
    } else {
      assert next == st;
      var i :| 0 <= i < |cpes| && MiningEligible(cpes[i], col);
      assert i > 0;
      assert forall i :: 0 <= i < |cpes| - 1 ==> cpes[1..][i] == cpes[i + 1];
      MineCPEsFindsCandidates(st, cpes[1..], refs, col);
    }
  }

  lemma WithinEmpty(xs: seq<string>, ys: seq<string>)
    requires forall x :: x in xs ==> x in ys
    ensures ys == [] ==> xs == []
  {
    if xs != [] {
      assert xs[0] in xs;
    }
  }

  /** With no CPE cached when mining starts, mining gives the CVE an entry
      exactly when the references yield candidates and some CPE is eligible. */
  lemma MiningFindsIff(c0: RepoMap, cpes: seq<string>, refs: seq<Reference>, col: Collaborators)
    requires forall i :: 0 <= i < |cpes| ==> !CachedCPE(cpes[i], c0, col)
    ensures MineCPEs(CPEMining(c0, None), cpes, refs, col).entry.Some? <==>
      MinedCandidates(refs, col) != [] && exists i :: 0 <= i < |cpes| && MiningEligible(cpes[i], col)
  {
    var st := CPEMining(c0, None);
    var r := MineCPEs(st, cpes, refs, col);
    MineCPEsWithinMined(st, c0, cpes, refs, col);
    var e := if r.entry.Some? then r.entry.value else [];
    WithinEmpty(e, MinedCandidates(refs, col));
    if MinedCandidates(refs, col) != [] && exists i :: 0 <= i < |cpes| && MiningEligible(cpes[i], col) {
      MineCPEsFindsCandidates(st, cpes, refs, col);
    }
  }

  /** Whether a software CVE reaches the emitter: it has repositories
      already, a cached vendor/product, or references whose mining finds some. */
  lemma SoftwareReachesEmitter(s: RunState, cve: CVEItem, cfg: Config)
    requires exists i :: 0 <= i < |cve.cpes| && IsApplicationCPE(cve.cpes[i], cfg.col)
    ensures var r := ProcessCVE(s, cve, cfg);
      cve.id in r.reposForCVE <==>
        || cve.id in s.reposForCVE
        || (exists i :: 0 <= i < |cve.cpes| && CachedCPE(cve.cpes[i], s.cache, cfg.col))
        || (cve.references != [] && MineCPEs(CPEMining(s.cache, None), cve.cpes, cve.references, cfg.col).entry.Some?)
  {
  }

  /** Gate 3 of the main loop, from the inputs: a software CVE ends as
      NoRepos exactly when it has no repositories yet, none of its
      vendor/products is cached, and mining cannot help: there are no
      references, they yield no candidate, or no CPE is eligible. */
  lemma NoReposIff(s: RunState, cve: CVEItem, cfg: Config)
    requires exists i :: 0 <= i < |cve.cpes| && IsApplicationCPE(cve.cpes[i], cfg.col)
    ensures var r := ProcessCVE(s, cve, cfg);
      var refs, cpes, col := cve.references, cve.cpes, cfg.col;
      Lookup(r.outcomes, cve.id) == Some(NoRepos) <==>
        && cve.id !in s.reposForCVE
        && (forall i :: 0 <= i < |cpes| ==> !CachedCPE(cpes[i], s.cache, col))
        && (refs == [] || MinedCandidates(refs, col) == [] || forall i :: 0 <= i < |cpes| ==> !MiningEligible(cpes[i], col))
  {
    var refs, cpes, col := cve.references, cve.cpes, cfg.col;
    OutcomeGates(s, cve, cfg);
    SoftwareReachesEmitter(s, cve, cfg);
    if forall i :: 0 <= i < |cpes| ==> !CachedCPE(cpes[i], s.cache, col) {
      MiningFindsIff(s.cache, cpes, refs, col);
    }
  }

  /** On the mining path, the emitter is given mined candidates only. */
  lemma MinedReposAreCandidates(s: RunState, cve: CVEItem, cfg: Config)
    requires exists i :: 0 <= i < |cve.cpes| && IsApplicationCPE(cve.cpes[i], cfg.col)
    requires cve.id !in s.reposForCVE
    requires forall i :: 0 <= i < |cve.cpes| ==> !CachedCPE(cve.cpes[i], s.cache, cfg.col)
    ensures var r := ProcessCVE(s, cve, cfg);
      cve.id in r.reposForCVE ==>
        forall x :: x in r.reposForCVE[cve.id] ==> x in MinedCandidates(cve.references, cfg.col)
  {
    if cve.references != [] {
      MineCPEsWithinMined(CPEMining(s.cache, None), s.cache, cve.cpes, cve.references, cfg.col);
    }
  }

  /** Off the mining path, the emitter is given exactly the repositories the
      CVE had plus those cached for any of its parsed vendor/products, and the
      cache is left alone. */
  lemma CachedReposReachEmitter(s: RunState, cve: CVEItem, cfg: Config)
    requires exists i :: 0 <= i < |cve.cpes| && IsApplicationCPE(cve.cpes[i], cfg.col)
    requires cve.id in s.reposForCVE || exists i :: 0 <= i < |cve.cpes| && CachedCPE(cve.cpes[i], s.cache, cfg.col)
    ensures var r := ProcessCVE(s, cve, cfg);
      && r.cache == s.cache
      && cve.id in r.reposForCVE
      && (forall x :: x in r.reposForCVE[cve.id] <==>
            (cve.id in s.reposForCVE && x in s.reposForCVE[cve.id]) || FromCachedCPE(x, cve.cpes, s.cache, cfg.col))
      && Lookup(r.outcomes, cve.id) == Some(OutcomeOf(Emit(cfg, cve, r.reposForCVE[cve.id])))
  {
  }

  /** The mining path: a software CVE with references, no repositories yet
      and no cached vendor/product leaves exactly the cache the mining loop
      leaves, which the run carries on to later CVEs, and takes the entry
      the mining loop derives as its repositories. */
  lemma MiningPathWritesThrough(s: RunState, cve: CVEItem, cfg: Config)
    requires exists i :: 0 <= i < |cve.cpes| && IsApplicationCPE(cve.cpes[i], cfg.col)
    requires cve.id !in s.reposForCVE && cve.references != []
    requires forall i :: 0 <= i < |cve.cpes| ==> !CachedCPE(cve.cpes[i], s.cache, cfg.col)
    ensures var r := ProcessCVE(s, cve, cfg);
      var m := MineCPEs(CPEMining(s.cache, None), cve.cpes, cve.references, cfg.col);
      && r.cache == m.cache
      && Lookup(r.reposForCVE, cve.id) == m.entry
      && Lookup(r.outcomes, cve.id) == Some(if m.entry.Some? then OutcomeOf(Emit(cfg, cve, m.entry.value)) else NoRepos)
  {
  }

  /** Mining one acceptable reference for a CPE's vendor/product writes that
      reference's repository through to the cache. */
  lemma MineOneReference(c0: RepoMap, cpe: string, u: string, rp: string, col: Collaborators)
    requires MiningEligible(cpe, col) && KeyOf(cpe, col) !in c0
    requires col.repo(u) == Some(rp) && col.validRepo(rp)
    ensures var m := MineCPEs(CPEMining(c0, None), [cpe], [Reference(u, [])], col);
      m.cache == c0[KeyOf(cpe, col) := [rp]] && m.entry == Some([rp])
  {
    var refs := [Reference(u, [])];
    assert RefAcceptable(refs[0], RefTagDenyList);
    assert FirstDenied(refs, RefTagDenyList) == 1 by {
      assert FirstDenied(refs[1..], RefTagDenyList) == 0;
    }
    assert refs[..1] == refs;
    SingleCandidate(refs, col, rp);
    assert MineCPEs(CPEMining(c0, None), [cpe], refs, col) == MineStep(CPEMining(c0, None), cpe, refs, col);
  }

  /** A CVE whose one CPE is a cached application CPE, with no repositories
      yet, is emitted with exactly the cached entry and leaves the cache alone. */
  lemma SingleCachedCPE(s: RunState, cve: CVEItem, cfg: Config)
    requires |cve.cpes| == 1 && IsApplicationCPE(cve.cpes[0], cfg.col) && CachedCPE(cve.cpes[0], s.cache, cfg.col)
    requires cve.id !in s.reposForCVE
    ensures var r := ProcessCVE(s, cve, cfg);
      var e := s.cache[KeyOf(cve.cpes[0], cfg.col)];
      && r.cache == s.cache
      && Lookup(r.reposForCVE, cve.id) == Some(e)
      && Lookup(r.outcomes, cve.id) == Some(OutcomeOf(Emit(cfg, cve, e)))
  {
    assert ScanCPEs(s.cache, cve.cpes, cfg.col, CPEScan(None, 0, false)).entry
        == Some(s.cache[KeyOf(cve.cpes[0], cfg.col)]);
  }

  /** A CVE whose one CPE is eligible and uncached and whose one reference
      is acceptable and names a valid repository caches `[repository]` under
      the CPE's vendor/product. */
  lemma MineOneCVE(s: RunState, cfg: Config, cpe: string, u: string, rp: string, id: string, e: VersionInfo)
    requires MiningEligible(cpe, cfg.col) && KeyOf(cpe, cfg.col) !in s.cache
    requires cfg.col.repo(u) == Some(rp) && cfg.col.validRepo(rp)
    requires id !in s.reposForCVE
    ensures ProcessCVE(s, CVEItem(id, [Reference(u, [])], [cpe], e), cfg).cache == s.cache[KeyOf(cpe, cfg.col) := [rp]]
  {
    var cve := CVEItem(id, [Reference(u, [])], [cpe], e);
    assert cve.cpes[0] == cpe && IsApplicationCPE(cpe, cfg.col) && !CachedCPE(cpe, s.cache, cfg.col);
    MiningPathWritesThrough(s, cve, cfg);
    MineOneReference(s.cache, cpe, u, rp, cfg.col);
  }

  lemma ProcessAllPair(s: RunState, a: CVEItem, b: CVEItem, cfg: Config)
    ensures ProcessAll(s, [a, b], cfg) == ProcessCVE(ProcessCVE(s, a, cfg), b, cfg)
  {
    var s1 := ProcessCVE(s, a, cfg);
    var s2 := ProcessCVE(s1, b, cfg);
    assert [a, b][0] == a && [a, b][1..] == [b];
    assert ProcessAll(s, [a, b], cfg) == ProcessAll(s1, [b], cfg);
    assert [b][0] == b && [b][1..] == [];
    assert ProcessAll(s1, [b], cfg) == ProcessAll(s2, [], cfg);
  }

  /** Repositories mined for one CVE serve a later CVE with the same
      vendor/product from the cache: CVE1 mines repository `rp` from its one
      reference, and CVE2, with the same CPE and no references at all, is
      emitted with `[rp]`. */
  lemma MinedReposServeLaterCVE(s: RunState, cfg: Config, cpe: string, u: string, rp: string,
                                id1: string, id2: string, e1: VersionInfo, e2: VersionInfo)
    requires MiningEligible(cpe, cfg.col) && KeyOf(cpe, cfg.col) !in s.cache
    requires cfg.col.repo(u) == Some(rp) && cfg.col.validRepo(rp)
    requires id1 != id2 && id1 !in s.reposForCVE && id2 !in s.reposForCVE
    ensures var cve2 := CVEItem(id2, [], [cpe], e2);
      var r := ProcessAll(s, [CVEItem(id1, [Reference(u, [])], [cpe], e1), cve2], cfg);
      && Lookup(r.cache, KeyOf(cpe, cfg.col)) == Some([rp])
      && Lookup(r.reposForCVE, id2) == Some([rp])
      && Lookup(r.outcomes, id2) == Some(OutcomeOf(Emit(cfg, cve2, [rp])))
  {
    var cve1 := CVEItem(id1, [Reference(u, [])], [cpe], e1);
    var cve2 := CVEItem(id2, [], [cpe], e2);
    MineOneCVE(s, cfg, cpe, u, rp, id1, e1);
    var s1 := ProcessCVE(s, cve1, cfg);
    assert Lookup(s1.reposForCVE, id2) == Lookup(s.reposForCVE, id2);
    assert cve2.cpes[0] == cpe;
    SingleCachedCPE(s1, cve2, cfg);
    ProcessAllPair(s, cve1, cve2, cfg);
  }

  /** The run keeps the cache well formed. */
  lemma {:induction false} RunKeepsCacheWellFormed(s: RunState, cves: seq<CVEItem>, cfg: Config)
    requires WellFormed(s.cache)
    ensures WellFormed(ProcessAll(s, cves, cfg).cache)
    decreases |cves|
  {
    if cves != [] {
      RunKeepsCacheWellFormed(ProcessCVE(s, cves[0], cfg), cves[1..], cfg);
    }
  }

  /** The run records outcomes and repositories only under the IDs of the
      CVEs it processes; every other ID keeps what it had. */
  lemma {:induction false} RunTouchesOnlyFeedIds(s: RunState, cves: seq<CVEItem>, cfg: Config, k: string)
    requires forall i :: 0 <= i < |cves| ==> cves[i].id != k
    ensures var r := ProcessAll(s, cves, cfg);
      Lookup(r.outcomes, k) == Lookup(s.outcomes, k) && Lookup(r.reposForCVE, k) == Lookup(s.reposForCVE, k)
    decreases |cves|
  {
    if cves != [] {
      assert cves[0].id != k;
      assert forall i :: 0 <= i < |cves| - 1 ==> cves[1..][i] == cves[i + 1];
      RunTouchesOnlyFeedIds(ProcessCVE(s, cves[0], cfg), cves[1..], cfg, k);
    }
  }

  /** The cache changes during a run only at vendor/products eligible for
      mining in some processed CVE. */
  lemma {:induction false} RunChangesCacheOnlyAtEligibleKeys(s: RunState, cves: seq<CVEItem>, cfg: Config,
                                                            k: VendorProduct)
    requires forall i :: 0 <= i < |cves| ==> k !in EligibleKeys(cves[i].cpes, cfg.col)
    ensures var r := ProcessAll(s, cves, cfg);
      Lookup(r.cache, k) == Lookup(s.cache, k)
    decreases |cves|
  {
    if cves != [] {
      assert k !in EligibleKeys(cves[0].cpes, cfg.col);
      assert forall i :: 0 <= i < |cves| - 1 ==> cves[1..][i] == cves[i + 1];
      RunChangesCacheOnlyAtEligibleKeys(ProcessCVE(s, cves[0], cfg), cves[1..], cfg, k);
    }
  }
}

=== FILE: cves.dfy ===
/** The shapes the converter receives from the CVE/CPE parsing and Git
    packages, and those packages' operations as parameters: their code is
    not part of this model. */
module Cves {
  import opened Wrappers

  /** A CVE reference: a URL and its tag set. */
  datatype Reference = Reference(url: string, tags: seq<string>)

  /** The fields of a parsed CPE the converter reads. */
  datatype CPE = CPE(part: string, vendor: string, product: string)

  datatype CommitKind = Introduced | Fixed | LastAffected

  /** Textual boundaries of one affected range; "" means absent. */
  datatype AffectedVersion = AffectedVersion(introduced: string, fixed: string, lastAffected: string)

  /** A resolved commit of the given kind in the given repository. */
  datatype AffectedCommit = AffectedCommit(repo: string, kind: CommitKind, commit: string)

  datatype VersionInfo = VersionInfo(affectedVersions: seq<AffectedVersion>, affectedCommits: seq<AffectedCommit>)

  /** A feed item: its ID, references, CPE strings (`cves.CPEs`), and the
      version information `cves.ExtractVersionInfo` derives from it. */
  datatype CVEItem = CVEItem(id: string, references: seq<Reference>, cpes: seq<string>, extracted: VersionInfo)

  /** The normalised tag table of one repository, opaque to the converter. */
  type Tags = seq<string>

  /** The external operations the converter calls:
      - repo: `cves.Repo`, a reference URL to a repository URL, or failure;
      - validRepo: `git.ValidRepo`;
      - normalizeRepoTags: `git.NormalizeRepoTags`, or failure;
      - versionToCommit: `git.VersionToCommit(version, repo, kind, tags)`,
        the commit hash, or failure;
      - parseCPE: `cves.ParseCPE`, or failure;
      - rangeCount: the number of ranges `AttachExtractedVersionInfo` builds
        from a VersionInfo. */
  datatype Collaborators = Collaborators(
    repo: string -> Option<string>,
    validRepo: string -> bool,
    normalizeRepoTags: string -> Option<Tags>,
    versionToCommit: (string, string, CommitKind, Tags) -> Option<string>,
    parseCPE: string -> Option<CPE>,
    rangeCount: VersionInfo -> nat
  )

  /** The textual boundary of the given kind. */
  function Boundary(av: AffectedVersion, kind: CommitKind): string
  {
    match kind
    case Introduced => av.introduced
    case Fixed => av.fixed
    case LastAffected => av.lastAffected
  }

  /** `VersionInfo.HasFixedCommits(repo)`: some recorded commit of `repo`
      is a Fixed one. */
  predicate HasFixedCommits(v: VersionInfo, repo: string)
  {
    exists i :: 0 <= i < |v.affectedCommits| && v.affectedCommits[i].repo == repo && v.affectedCommits[i].kind == Fixed
  }

  /** `VersionInfo.HasFixedVersions()`: some affected range has a textual
      fixed boundary. */
  predicate HasFixedVersions(v: VersionInfo)
  {
    exists i :: 0 <= i < |v.affectedVersions| && v.affectedVersions[i].fixed != ""
  }

  /** Is `s` a CPE string that parses with part "a" (an application)? */
  predicate IsApplicationCPE(s: string, col: Collaborators)
  {
    col.parseCPE(s).Some? && col.parseCPE(s).value.part == "a"
  }
}

=== FILE: emitters.dfy ===
/** The error gating of the two record emitters, `CVEToOSV` and
    `CVEToPackageInfo`, up to the point where the record is written, and
    the mapping of their errors to outcomes. */
module Emitters {
  import opened Wrappers
  import opened Cves
  import opened Resolver
  import opened Outcomes

  datatype EmitError =
    | ErrInvalidCPE          // the first CPE does not parse
    | ErrNoReposForVersions  // affected versions, but no repository to resolve them in
    | ErrUnresolvedFix       // sentinel: fixed versions, no repository with a Fixed commit
    | ErrNoRanges            // sentinel: nothing to put in the record
    | ErrWriteFailed         // creating the directory or file, or encoding, failed

  /** The first CPE, used to name the output directory, parses (or there is none). */
  predicate FirstCPEParses(cve: CVEItem, col: Collaborators)
  {
    |cve.cpes| == 0 || col.parseCPE(cve.cpes[0]).Some?
  }

  /** The `hasAnyFixedCommits` loop. */
  predicate AnyRepoHasFixedCommits(v: VersionInfo, repos: seq<string>)
  {
    exists i :: 0 <= i < |repos| && HasFixedCommits(v, repos[i])
  }

  /** Some candidate repository ends up with a Fixed commit: it had one
      upstream or one of the fixed boundaries resolves in it. */
  ghost predicate FixReachable(v: VersionInfo, repos: seq<string>, col: Collaborators)
  {
    exists r :: r in repos && (HasFixedCommits(v, r) || FixResolvable(v.affectedVersions, r, repos, col))
  }

  /** The emitters' unresolved-fix test after resolution, in terms of the
      input. */
  lemma AnyFixedIff(v: VersionInfo, repos: seq<string>, col: Collaborators)
    ensures AnyRepoHasFixedCommits(GitVersionsToCommits(v, repos, col), repos) <==> FixReachable(v, repos, col)
  {
    var out := GitVersionsToCommits(v, repos, col);
    forall r | r in repos
      ensures HasFixedCommits(out, r) <==> HasFixedCommits(v, r) || FixResolvable(v.affectedVersions, r, repos, col)
    {
      FixedCommitIff(v, repos, col, r);
    }
    if AnyRepoHasFixedCommits(out, repos) {
      var i :| 0 <= i < |repos| && HasFixedCommits(out, repos[i]);
      assert repos[i] in repos;
    }
    if FixReachable(v, repos, col) {
      var r :| r in repos && (HasFixedCommits(v, r) || FixResolvable(v.affectedVersions, r, repos, col));
      var i :| 0 <= i < |repos| && repos[i] == r;
      assert HasFixedCommits(out, repos[i]);
    }
  }

  /** The condition under which both emitters report ErrUnresolvedFix. */
  ghost predicate FixUnresolved(cve: CVEItem, repos: seq<string>, col: Collaborators)
  {
    && FirstCPEParses(cve, col)
    && HasFixedVersions(cve.extracted)
    && |repos| > 0
    && !FixReachable(cve.extracted, repos, col)
  }

  /** Affected versions to resolve, but no candidate repository. */
  predicate VersionsWithoutRepos(cve: CVEItem, repos: seq<string>)
  {
    |cve.extracted.affectedVersions| > 0 && |repos| == 0
  }

  /** The version information after the resolution step: resolved when
      there are affected versions, as extracted otherwise. */
  function Resolved(cve: CVEItem, repos: seq<string>, col: Collaborators): VersionInfo
  {
    if |cve.extracted.affectedVersions| != 0 then GitVersionsToCommits(cve.extracted, repos, col) else cve.extracted
  }

  /** No commit was extracted and no boundary resolves to one. */
  ghost predicate NoCommitsDerivable(cve: CVEItem, repos: seq<string>, col: Collaborators)
  {
    cve.extracted.affectedCommits == [] && !SomeBoundaryResolves(cve.extracted.affectedVersions, repos, col)
  }

  /** The resolved commit list is empty exactly when nothing is derivable. */
  lemma ResolvedCommitsEmptyIff(cve: CVEItem, repos: seq<string>, col: Collaborators)
    ensures Resolved(cve, repos, col).affectedCommits == [] <==> NoCommitsDerivable(cve, repos, col)
  {
    if |cve.extracted.affectedVersions| != 0 {
      ResolvesNothingIff(cve.extracted, repos, col);
    } else {
      assert !SomeBoundaryResolves(cve.extracted.affectedVersions, repos, col);
    }
  }

  /** `CVEToPackageInfo` up to the write. Each error arises exactly when the
      gates before it pass and its own condition holds, in the source's
      order: the first CPE, versions without repositories, the unresolved
      fix, then no commits. On success the textual versions are dropped and
      the record carries the (non-empty) resolved commits. `writeOk` stands
      for the directory, file and encoder calls succeeding. */
  function CVEToPackageInfo(cve: CVEItem, repos: seq<string>, col: Collaborators, writeOk: bool): (r: Result<VersionInfo, EmitError>)
    ensures r == Failure(ErrInvalidCPE) <==> !FirstCPEParses(cve, col)
    ensures r == Failure(ErrNoReposForVersions) <==> FirstCPEParses(cve, col) && VersionsWithoutRepos(cve, repos)
    ensures r == Failure(ErrUnresolvedFix) <==> FixUnresolved(cve, repos, col)
    ensures r == Failure(ErrNoRanges) <==>
      && FirstCPEParses(cve, col) && !VersionsWithoutRepos(cve, repos) && !FixUnresolved(cve, repos, col)
      && NoCommitsDerivable(cve, repos, col)
    ensures r.Success? <==>
      && writeOk
      && FirstCPEParses(cve, col) && !VersionsWithoutRepos(cve, repos) && !FixUnresolved(cve, repos, col)
      && !NoCommitsDerivable(cve, repos, col)
    ensures r.Success? ==>
      && r.value.affectedVersions == []
      && r.value.affectedCommits != []
      && cve.extracted.affectedCommits <= r.value.affectedCommits
  {
    if !FirstCPEParses(cve, col) then Failure(ErrInvalidCPE)
    else
      var versions := cve.extracted;
      if |versions.affectedVersions| != 0 && |repos| == 0 then Failure(ErrNoReposForVersions)
      else
        var resolved := Resolved(cve, repos, col);
        AnyFixedIff(versions, repos, col);
        ResolvedCommitsEmptyIff(cve, repos, col);
        assert HasFixedVersions(resolved) <==> HasFixedVersions(versions);
        if HasFixedVersions(resolved) && !AnyRepoHasFixedCommits(resolved, repos) then Failure(ErrUnresolvedFix)
        else if |resolved.affectedCommits| == 0 then Failure(ErrNoRanges)
        else if !writeOk then Failure(ErrWriteFailed)
        else Success(resolved.(affectedVersions := []))
  }

  /** `CVEToOSV` up to the write. The same gates as CVEToPackageInfo, except
      that the unresolved-fix test is made only when there are affected
      versions and the no-ranges test counts the ranges built from the
      resolved versions. */
  function CVEToOSV(cve: CVEItem, repos: seq<string>, col: Collaborators, writeOk: bool): (r: Result<VersionInfo, EmitError>)
    ensures r == Failure(ErrInvalidCPE) <==> !FirstCPEParses(cve, col)
    ensures r == Failure(ErrNoReposForVersions) <==> FirstCPEParses(cve, col) && VersionsWithoutRepos(cve, repos)
    ensures r == Failure(ErrUnresolvedFix) <==> FixUnresolved(cve, repos, col)
    ensures r == Failure(ErrNoRanges) <==>
      && FirstCPEParses(cve, col) && !VersionsWithoutRepos(cve, repos) && !FixUnresolved(cve, repos, col)
      && col.rangeCount(Resolved(cve, repos, col)) == 0
    ensures r.Success? <==>
      && writeOk
      && FirstCPEParses(cve, col) && !VersionsWithoutRepos(cve, repos) && !FixUnresolved(cve, repos, col)
      && col.rangeCount(Resolved(cve, repos, col)) > 0
    ensures r.Success? ==> Extends(cve.extracted, r.value)
  {
    if !FirstCPEParses(cve, col) then Failure(ErrInvalidCPE)
    else
      var versions := cve.extracted;
      if |versions.affectedVersions| != 0 && |repos| == 0 then Failure(ErrNoReposForVersions)
      else
        var resolved := Resolved(cve, repos, col);
        AnyFixedIff(versions, repos, col);
        if |versions.affectedVersions| != 0 && HasFixedVersions(resolved) && !AnyRepoHasFixedCommits(resolved, repos) then
          Failure(ErrUnresolvedFix)
        else if col.rangeCount(resolved) == 0 then Failure(ErrNoRanges)
        else if !writeOk then Failure(ErrWriteFailed)
        else Success(resolved)
  }

  /** The error-to-outcome mapping after emission: the two sentinels map to
      their outcomes, success to Successful, anything else to
      ConversionUnknown; no pre-emission outcome can arise here. */
  function OutcomeOf(r: Result<VersionInfo, EmitError>): (o: Outcome)
    ensures o == Successful <==> r.Success?
    ensures o == NoRanges <==> r == Failure(ErrNoRanges)
    ensures o == FixUnresolvable <==> r == Failure(ErrUnresolvedFix)
    ensures o != Rejected && o != NoSoftware && o != NoRepos
  {
    match r
    case Success(_) => Successful
    case Failure(ErrNoRanges) => NoRanges
    case Failure(ErrUnresolvedFix) => FixUnresolvable
    case Failure(_) => ConversionUnknown
  }

  /** The two emitters agree on when a fix is unresolvable. */
  lemma EmittersAgreeOnUnresolvedFix(cve: CVEItem, repos: seq<string>, col: Collaborators, w1: bool, w2: bool)
    ensures CVEToOSV(cve, repos, col, w1) == Failure(ErrUnresolvedFix)
        <==> CVEToPackageInfo(cve, repos, col, w2) == Failure(ErrUnresolvedFix)
  {
  }
}

=== FILE: mining.dfy ===
/** Reference mining: deriving candidate repositories for a CVE from its
    references, through the vendor/product cache. */
module Mining {
  import opened Wrappers
  import opened Seqs
  import opened VendorProducts
  import opened RepoCache
  import opened Cves

  /** `refAcceptable`: a reference is acceptable unless one of the denied
      tags is among its tags. */
  function RefAcceptable(ref: Reference, tagDenyList: seq<string>): (ok: bool)
    ensures ok <==> forall t :: t in tagDenyList ==> t !in ref.tags
    decreases |tagDenyList|
  {
    if tagDenyList == [] then true
    else if tagDenyList[0] in ref.tags then false
    else RefAcceptable(ref, tagDenyList[1..])
  }

  /** The index of the first unacceptable reference, or |refs| if none. */
  function FirstDenied(refs: seq<Reference>, tagDenyList: seq<string>): (d: nat)
    ensures d <= |refs|
    ensures forall i :: 0 <= i < d ==> RefAcceptable(refs[i], tagDenyList)
    ensures d < |refs| ==> !RefAcceptable(refs[d], tagDenyList)
    decreases |refs|
  {
    if refs == [] || !RefAcceptable(refs[0], tagDenyList) then 0
    else 1 + FirstDenied(refs[1..], tagDenyList)
  }

  /** The repository a reference points at: its URL parsed by `cves.Repo`
      and accepted by `git.ValidRepo`; empty otherwise. */
  function RepoOf(ref: Reference, col: Collaborators): seq<string>
  {
    match col.repo(ref.url)
    case Some(r) => if col.validRepo(r) then [r] else []
    case None => []
  }

  /** The repositories a run of references points at, in order, repeats kept. */
  function CandidateRepos(refs: seq<Reference>, col: Collaborators): seq<string>
    decreases |refs|
  {
    if refs == [] then []
    else CandidateRepos(refs[..|refs| - 1], col) + RepoOf(refs[|refs| - 1], col)
  }

  /** What mining returns: the derived repositories and the updated cache. */
  datatype Mined = Mined(repos: seq<string>, cache: RepoMap)

  /** The loop of `ReposFromReferences` over the remaining references, with
      the repositories collected so far. */
  function MineReferences(cache: RepoMap, vp: Option<VendorProduct>, refs: seq<Reference>,
                          tagDenyList: seq<string>, col: Collaborators, repos: seq<string>): (m: Mined)
    ensures repos <= m.repos
    decreases |refs|
  {
    if refs == [] then Mined(repos, cache)
    else if !RefAcceptable(refs[0], tagDenyList) then
      // A denied reference retracts its raw URL from the cache and ends the loop.
      Mined(repos, MaybeRemove(cache, vp, refs[0].url))
    else match col.repo(refs[0].url)
      case None => MineReferences(cache, vp, refs[1..], tagDenyList, col, repos)
      case Some(repo) =>
        if !col.validRepo(repo) || repo in repos then
          MineReferences(cache, vp, refs[1..], tagDenyList, col, repos)
        else
          MineReferences(MaybeUpdate(cache, vp, repo), vp, refs[1..], tagDenyList, col, repos + [repo])
  }

  predicate CacheHit(cache: RepoMap, vp: Option<VendorProduct>)
  {
    vp.Some? && vp.value in cache
  }

  /** The cache entry for `k` is exactly `acc`, and absent while `acc` is empty. */
  predicate Mirrors(c: RepoMap, k: VendorProduct, acc: seq<string>)
  {
    if acc == [] then k !in c else k in c && c[k] == acc
  }

  /** The cache a miss leaves: the entry for `k` set to the mined
      repositories (if any), then the raw URL of the denied reference at
      index `d` (if any) removed from it. */
  function AfterMining(c: RepoMap, k: VendorProduct, repos: seq<string>, refs: seq<Reference>, d: nat): RepoMap
    requires d <= |refs|
  {
    var c1 := if repos == [] then c else c[k := repos];
    if d < |refs| then MaybeRemove(c1, Some(k), refs[d].url) else c1
  }

  /** One accepted reference extends the candidate list by its repository. */
  lemma CandidateReposSnoc(done: seq<Reference>, r: Reference, col: Collaborators)
    ensures CandidateRepos(done + [r], col) == CandidateRepos(done, col) + RepoOf(r, col)
  {
    assert (done + [r])[..|done + [r]| - 1] == done;
  }

  /** The mining loop collects the de-duplicated candidates of the
      references before the first denied one, and leaves the cache as
      AfterMining describes. */
  lemma {:induction false} MineReferencesExact(cache: RepoMap, vp: Option<VendorProduct>, refs: seq<Reference>,
                                               tagDenyList: seq<string>, col: Collaborators, done: seq<Reference>)
    requires vp.Some? ==> Mirrors(cache, vp.value, Dedup(CandidateRepos(done, col)))
    ensures var m := MineReferences(cache, vp, refs, tagDenyList, col, Dedup(CandidateRepos(done, col)));
      var d := FirstDenied(refs, tagDenyList);
      && m.repos == Dedup(CandidateRepos(done + refs[..d], col))
      && (vp.None? ==> m.cache == cache)
      && (vp.Some? ==> m.cache == AfterMining(cache, vp.value, m.repos, refs, d))
    decreases |refs|, 1
  {
    var acc := Dedup(CandidateRepos(done, col));
    var d := FirstDenied(refs, tagDenyList);
    if refs == [] || !RefAcceptable(refs[0], tagDenyList) {
      assert d == 0 && done + refs[..d] == done;
      if vp.Some? && acc != [] {
        assert cache[vp.value := acc] == cache;
      }
    } else {
      MineReferencesStep(cache, vp, refs, tagDenyList, col, done);
    }
  }

  /** The inductive step of MineReferencesExact: an accepted first reference. */
  lemma {:induction false} MineReferencesStep(cache: RepoMap, vp: Option<VendorProduct>, refs: seq<Reference>,
                                              tagDenyList: seq<string>, col: Collaborators, done: seq<Reference>)
    requires vp.Some? ==> Mirrors(cache, vp.value, Dedup(CandidateRepos(done, col)))
    requires refs != [] && RefAcceptable(refs[0], tagDenyList)
    ensures var m := MineReferences(cache, vp, refs, tagDenyList, col, Dedup(CandidateRepos(done, col)));
      var d := FirstDenied(refs, tagDenyList);
      && m.repos == Dedup(CandidateRepos(done + refs[..d], col))
      && (vp.None? ==> m.cache == cache)
      && (vp.Some? ==> m.cache == AfterMining(cache, vp.value, m.repos, refs, d))
    decreases |refs|, 0
  {
    var acc := Dedup(CandidateRepos(done, col));
    var r := refs[0];
    var done' := done + [r];
    CandidateReposSnoc(done, r, col);
    DedupSnocs(CandidateRepos(done, col), RepoOf(r, col));
    ShiftAccepted(done, refs, tagDenyList);
    var acc' := Dedup(CandidateRepos(done', col));
    if acc' == acc {
      MineReferencesSkip(cache, vp, refs, tagDenyList, col, acc);
      MineReferencesExact(cache, vp, refs[1..], tagDenyList, col, done');
    } else {
      var repo := col.repo(r.url).value;
      assert acc' == acc + [repo] && repo !in acc && col.validRepo(repo);
      MineReferencesTake(cache, vp, refs, tagDenyList, col, acc, repo);
      var cache' := MaybeUpdate(cache, vp, repo);
      if vp.Some? {
        UpdateMirrored(cache, vp.value, acc, repo);
      }
      MineReferencesExact(cache', vp, refs[1..], tagDenyList, col, done');
      if vp.Some? {
        AfterMiningShift(cache, vp.value, acc', refs, tagDenyList, col);
      }
    }
  }

  /** Moving the first accepted reference from the remaining ones to the
      processed ones. */
  lemma ShiftAccepted(done: seq<Reference>, refs: seq<Reference>, tagDenyList: seq<string>)
    requires refs != [] && RefAcceptable(refs[0], tagDenyList)
    ensures FirstDenied(refs, tagDenyList) == 1 + FirstDenied(refs[1..], tagDenyList)
    ensures done + refs[..FirstDenied(refs, tagDenyList)]
         == (done + [refs[0]]) + refs[1..][..FirstDenied(refs[1..], tagDenyList)]
  {
    var d' := FirstDenied(refs[1..], tagDenyList);
    assert FirstDenied(refs, tagDenyList) == 1 + d';
    ShiftPrefix(done, refs, d');
  }

  lemma ShiftPrefix<T>(done: seq<T>, s: seq<T>, n: nat)
    requires n < |s|
    ensures done + s[..n + 1] == (done + [s[0]]) + s[1..][..n]
  {
    assert s[..n + 1] == [s[0]] + s[1..][..n];
  }

  /** An accepted reference yielding nothing new leaves the loop state alone. */
  lemma MineReferencesSkip(cache: RepoMap, vp: Option<VendorProduct>, refs: seq<Reference>,
                           tagDenyList: seq<string>, col: Collaborators, acc: seq<string>)
    requires refs != [] && RefAcceptable(refs[0], tagDenyList)
    requires RepoOf(refs[0], col) == [] || RepoOf(refs[0], col)[0] in acc
    ensures MineReferences(cache, vp, refs, tagDenyList, col, acc)
         == MineReferences(cache, vp, refs[1..], tagDenyList, col, acc)
  {
  }

  /** An accepted reference yielding a new repository appends it and writes
      it through to the cache. */
  lemma MineReferencesTake(cache: RepoMap, vp: Option<VendorProduct>, refs: seq<Reference>,
                           tagDenyList: seq<string>, col: Collaborators, acc: seq<string>, repo: string)
    requires refs != [] && RefAcceptable(refs[0], tagDenyList)
    requires col.repo(refs[0].url) == Some(repo) && col.validRepo(repo) && repo !in acc
    ensures MineReferences(cache, vp, refs, tagDenyList, col, acc)
         == MineReferences(MaybeUpdate(cache, vp, repo), vp, refs[1..], tagDenyList, col, acc + [repo])
  {
  }

  /** The final cache seen from the second reference on equals the one seen
      from the first, once the entry already holds the collected list. */
  lemma AfterMiningShift(cache: RepoMap, k: VendorProduct, acc': seq<string>, refs: seq<Reference>,
                         tagDenyList: seq<string>, col: Collaborators)
    requires refs != [] && RefAcceptable(refs[0], tagDenyList) && acc' != []
    ensures forall repos :: acc' <= repos ==>
      AfterMining(cache[k := acc'], k, repos, refs[1..], FirstDenied(refs[1..], tagDenyList))
      == AfterMining(cache, k, repos, refs, FirstDenied(refs, tagDenyList))
  {
    var d := FirstDenied(refs, tagDenyList);
    var d' := FirstDenied(refs[1..], tagDenyList);
    assert d == 1 + d';
    forall repos | acc' <= repos
      ensures AfterMining(cache[k := acc'], k, repos, refs[1..], d') == AfterMining(cache, k, repos, refs, d)
    {
      assert repos != [] by { assert repos[0] == acc'[0]; }
      OverrideEntry(cache, k, acc', repos);
      if d < |refs| {
        assert refs[d] == refs[1..][d'];
      }
    }
  }

  /** Appending to a mirrored entry sets it to the extended list. */
  lemma UpdateMirrored(c: RepoMap, k: VendorProduct, acc: seq<string>, repo: string)
    requires Mirrors(c, k, acc) && repo !in acc
    ensures MaybeUpdate(c, Some(k), repo) == c[k := acc + [repo]]
  {
    assert Entry(c, k) == acc;
  }

  /** A later write to a key overrides an earlier one. */
  lemma OverrideEntry(c: RepoMap, k: VendorProduct, a: seq<string>, b: seq<string>)
    ensures c[k := a][k := b] == c[k := b]
  {
  }

  /** Writing a non-empty, duplicate-free list and then removing a URL keeps
      the cache well formed. */
  lemma AfterMiningWellFormed(c: RepoMap, k: VendorProduct, repos: seq<string>, refs: seq<Reference>, d: nat)
    requires d <= |refs| && WellFormed(c) && NoDuplicates(repos)
    ensures WellFormed(AfterMining(c, k, repos, refs, d))
  {
    var c1 := if repos == [] then c else c[k := repos];
    assert WellFormed(c1) by {
      forall vp | vp in c1
        ensures c1[vp] != [] && NoDuplicates(c1[vp])
      {
        if vp != k || repos == [] {
          assert vp in c && c1[vp] == c[vp];
        }
      }
    }
  }

  /** De-duplication after appending zero or one element. */
  lemma DedupSnocs(c: seq<string>, x: seq<string>)
    requires |x| <= 1
    ensures x == [] ==> Dedup(c + x) == Dedup(c)
    ensures |x| == 1 ==> Dedup(c + x) == if x[0] in Dedup(c) then Dedup(c) else Dedup(c) + x
  {
    if x == [] {
      assert c + x == c;
    } else {
      DedupSnoc(c, x[0]);
      assert x == [x[0]];
    }
  }

  /** `ReposFromReferences`. A cache hit for a non-nil `vp` returns the
      cached list and leaves the cache alone. Otherwise the references are
      walked in order up to the first one carrying a denied tag; the
      repositories the earlier ones yield are returned de-duplicated in
      first-seen order and written through to the cache entry for `vp`,
      from which the denied reference's raw URL is then removed. */
  function ReposFromReferences(cache: RepoMap, vp: Option<VendorProduct>, refs: seq<Reference>,
                               tagDenyList: seq<string>, col: Collaborators): (m: Mined)
    ensures CacheHit(cache, vp) ==> m.repos == cache[vp.value] && m.cache == cache
    ensures !CacheHit(cache, vp) ==>
      m.repos == Dedup(CandidateRepos(refs[..FirstDenied(refs, tagDenyList)], col))
    ensures vp.None? ==> m.cache == cache
    ensures !CacheHit(cache, vp) && vp.Some? ==>
      m.cache == AfterMining(cache, vp.value, m.repos, refs, FirstDenied(refs, tagDenyList))
    ensures WellFormed(cache) ==> WellFormed(m.cache)
  {
    if CacheHit(cache, vp) then Mined(cache[vp.value], cache)
    else
      assert CandidateRepos([], col) == [];
      MineReferencesExact(cache, vp, refs, tagDenyList, col, []);
      var d := FirstDenied(refs, tagDenyList);
      assert [] + refs[..d] == refs[..d];
      var m := MineReferences(cache, vp, refs, tagDenyList, col, []);
      if vp.None? || !WellFormed(cache) then m
      else
        AfterMiningWellFormed(cache, vp.value, m.repos, refs, d);
        m
  }

  /** A repository is a candidate exactly when some reference names it and
      it is valid. */
  lemma {:induction false} CandidateReposMembers(refs: seq<Reference>, col: Collaborators, x: string)
    ensures x in CandidateRepos(refs, col) <==>
      exists i :: 0 <= i < |refs| && col.repo(refs[i].url) == Some(x) && col.validRepo(x)
    decreases |refs|
  {
    if refs != [] {
      var p := refs[..|refs| - 1];
      CandidateReposMembers(p, col, x);
      assert forall i :: 0 <= i < |p| ==> p[i] == refs[i];
      if exists i :: 0 <= i < |refs| && col.repo(refs[i].url) == Some(x) && col.validRepo(x) {
        var i :| 0 <= i < |refs| && col.repo(refs[i].url) == Some(x) && col.validRepo(x);
        if i < |p| {
          assert col.repo(p[i].url) == Some(x);
        }
      }
    }
  }

  /** On a miss, a repository is returned exactly when a reference before
      the first one carrying a denied tag (so an acceptable one) parses to
      it and it is valid. */
  lemma MinedRepoIff(cache: RepoMap, vp: Option<VendorProduct>, refs: seq<Reference>,
                     tagDenyList: seq<string>, col: Collaborators, x: string)
    requires !CacheHit(cache, vp)
    ensures x in ReposFromReferences(cache, vp, refs, tagDenyList, col).repos <==>
      exists i :: 0 <= i < FirstDenied(refs, tagDenyList) && RefAcceptable(refs[i], tagDenyList)
        && col.repo(refs[i].url) == Some(x) && col.validRepo(x)
  {
    var d := FirstDenied(refs, tagDenyList);
    var p := refs[..d];
    CandidateReposMembers(p, col, x);
    assert forall i :: 0 <= i < d ==> p[i] == refs[i];
  }

  /** On a miss for a non-nil `vp`: only the entry for `vp` changes; it
      lists returned repositories only; every returned repository is in it
      except the denied reference's raw URL, which is not. */
  lemma MinedReposAreCached(cache: RepoMap, vp: VendorProduct, refs: seq<Reference>,
                            tagDenyList: seq<string>, col: Collaborators)
    requires vp !in cache
    ensures var m := ReposFromReferences(cache, Some(vp), refs, tagDenyList, col);
      var d := FirstDenied(refs, tagDenyList);
      && SameElsewhere(cache, m.cache, Some(vp))
      && (forall r :: r in m.repos && (d == |refs| || r != refs[d].url) ==> vp in m.cache && r in m.cache[vp])
      && (vp in m.cache ==> forall r :: r in m.cache[vp] ==> r in m.repos)
      && (d < |refs| ==> vp !in m.cache || refs[d].url !in m.cache[vp])
  {
    var m := ReposFromReferences(cache, Some(vp), refs, tagDenyList, col);
    var d := FirstDenied(refs, tagDenyList);
    AfterMiningFrame(cache, vp, m.repos, refs, d);
    AfterMiningKeeps(cache, vp, m.repos, refs, d);
  }

  /** AfterMining touches only the mined key, and leaves in it only mined
      repositories, none of them the denied URL. */
  lemma AfterMiningFrame(c: RepoMap, k: VendorProduct, repos: seq<string>, refs: seq<Reference>, d: nat)
    requires d <= |refs| && NoDuplicates(repos)
    ensures var a := AfterMining(c, k, repos, refs, d);
      && SameElsewhere(c, a, Some(k))
      && (k !in c && k in a ==> forall r :: r in a[k] ==> r in repos)
      && (k !in c && d < |refs| ==> k !in a || refs[d].url !in a[k])
  {
    var c1 := if repos == [] then c else c[k := repos];
    assert SameElsewhere(c, c1, Some(k));
    if k !in c && d < |refs| && repos != [] {
      AfterMiningRemoval(c, k, repos, refs[d].url);
    }
  }

  /** Removing `u` from a freshly written duplicate-free entry. */
  lemma AfterMiningRemoval(c: RepoMap, k: VendorProduct, repos: seq<string>, u: string)
    requires repos != [] && NoDuplicates(repos)
    ensures var a := MaybeRemove(c[k := repos], Some(k), u);
      && (k in a ==> forall r :: r in a[k] ==> r in repos)
      && (k !in a || u !in a[k])
  {
    var a := MaybeRemove(c[k := repos], Some(k), u);
    if u in repos && |repos| > 1 {
      var i :| 0 <= i < |repos| && repos[i] == u && u !in repos[..i] && a[k] == repos[..i] + repos[i + 1..];
      RemoveAt(repos, i);
    } else if u in repos {
      assert repos == [u] by { assert repos[0] == u; }
    }
  }

  /** Every mined repository other than the denied URL stays cached. */
  lemma AfterMiningKeeps(c: RepoMap, k: VendorProduct, repos: seq<string>, refs: seq<Reference>, d: nat)
    requires d <= |refs| && NoDuplicates(repos)
    ensures var a := AfterMining(c, k, repos, refs, d);
      forall r :: r in repos && (d == |refs| || r != refs[d].url) ==> k in a && r in a[k]
  {
    var a := AfterMining(c, k, repos, refs, d);
    if d < |refs| && repos != [] {
      var u := refs[d].url;
      if u in repos && |repos| > 1 {
        var i :| 0 <= i < |repos| && repos[i] == u && u !in repos[..i] && a[k] == repos[..i] + repos[i + 1..];
        forall r | r in repos && r != u
          ensures r in a[k]
        {
          var j :| 0 <= j < |repos| && repos[j] == r;
          assert j != i;
          assert a[k][if j < i then j else j - 1] == r;
        }
      } else if u in repos {
        assert repos == [u] by { assert repos[0] == u; }
      }
    }
  }

  /** A cache hit inspects no reference: the result is the same whatever
      the references, the deny list and the collaborators. */
  lemma CacheHitIgnoresReferences(cache: RepoMap, vp: VendorProduct, refs: seq<Reference>, refs': seq<Reference>,
                                  tagDenyList: seq<string>, tagDenyList': seq<string>, col: Collaborators, col': Collaborators)
    requires vp in cache
    ensures ReposFromReferences(cache, Some(vp), refs, tagDenyList, col)
         == ReposFromReferences(cache, Some(vp), refs', tagDenyList', col')
  {
  }

  /** Mining an accepted reference into repository `r` followed by a denied
      one: `r` is the one repository returned, and the cache entry is `[r]`
      with the denied reference's raw URL then retracted from it. */
  lemma AcceptedThenDenied(col: Collaborators, vp: VendorProduct, u1: string, u2: string, r: string,
                           deny: seq<string>)
    requires deny != []
    requires col.repo(u1) == Some(r) && col.validRepo(r)
    ensures var refs := [Reference(u1, []), Reference(u2, [deny[0]])];
      var m := ReposFromReferences(map[], Some(vp), refs, deny, col);
      m.repos == [r] && m.cache == MaybeRemove(map[vp := [r]], Some(vp), u2)
  {
    var refs := [Reference(u1, []), Reference(u2, [deny[0]])];
    PairFirstDenied(refs, deny);
    SingleCandidate(refs[..1], col, r);
  }

  lemma PairFirstDenied(refs: seq<Reference>, deny: seq<string>)
    requires |refs| == 2 && deny != [] && refs[0].tags == [] && refs[1].tags == [deny[0]]
    ensures FirstDenied(refs, deny) == 1
  {
    assert RefAcceptable(refs[0], deny);
    assert !RefAcceptable(refs[1], deny);
    assert refs[1..][0] == refs[1];
  }

  lemma SingleCandidate(refs: seq<Reference>, col: Collaborators, r: string)
    requires |refs| == 1 && col.repo(refs[0].url) == Some(r) && col.validRepo(r)
    ensures Dedup(CandidateRepos(refs, col)) == [r]
  {
    assert refs[..0] == [];
    assert CandidateRepos(refs, col) == [r];
    assert [r][..0] == [];
  }

  /** A denied reference does not keep its repository out of the result:
      an earlier acceptable reference to the same repository keeps it there,
      while the cache entry loses it. */
  lemma DeniedReferenceRepoCanSurvive(col: Collaborators, vp: VendorProduct, u: string, deny: seq<string>)
    requires deny != []
    requires col.repo(u) == Some(u) && col.validRepo(u)
    ensures var refs := [Reference(u, []), Reference(u, [deny[0]])];
      var m := ReposFromReferences(map[], Some(vp), refs, deny, col);
      m.repos == [u] && vp !in m.cache
  {
    AcceptedThenDenied(col, vp, u, u, u, deny);
  }

  /** The retraction uses the reference's raw URL, not the repository it
      normalises to, so a repository cached from an earlier reference
      survives a later denied reference into the same repository. */
  lemma RawUrlRetractionMissesRepo(col: Collaborators, vp: VendorProduct, u1: string, u2: string, r: string,
                                   deny: seq<string>)
    requires deny != []
    requires col.repo(u1) == Some(r) && col.repo(u2) == Some(r) && col.validRepo(r)
    requires u2 != r
    ensures var refs := [Reference(u1, []), Reference(u2, [deny[0]])];
      var m := ReposFromReferences(map[], Some(vp), refs, deny, col);
      vp in m.cache && m.cache[vp] == [r]
  {
    AcceptedThenDenied(col, vp, u1, u2, r, deny);
  }
}

=== FILE: outcomes.dfy ===
/** The closed enumeration of per-CVE conversion outcomes and its string
    form. */
module Outcomes {
  import opened Wrappers

  datatype Outcome =
    | ConversionUnknown  // should not happen
    | Successful
    | Rejected           // no CPEs and no references
    | NoSoftware         // CPEs, but none for an application
    | NoRepos            // no repository derived
    | NoRanges           // no commit ranges derived
    | FixUnresolvable    // fixed versions that resolved to no commit

  /** The outcome's integer value, in declaration (iota) order. */
  function Code(o: Outcome): nat
  {
    match o
    case ConversionUnknown => 0
    case Successful => 1
    case Rejected => 2
    case NoSoftware => 3
    case NoRepos => 4
    case NoRanges => 5
    case FixUnresolvable => 6
  }

  /** The outcome with a given integer value, if any. */
  function FromCode(c: int): (o: Option<Outcome>)
    ensures o.Some? <==> 0 <= c < 7
    ensures o.Some? ==> Code(o.value) == c
  {
    if c == 0 then Some(ConversionUnknown)
    else if c == 1 then Some(Successful)
    else if c == 2 then Some(Rejected)
    else if c == 3 then Some(NoSoftware)
    else if c == 4 then Some(NoRepos)
    else if c == 5 then Some(NoRanges)
    else if c == 6 then Some(FixUnresolvable)
    else None
  }

  const OutcomeNames: seq<string> := [
    "ConversionUnknown", "Successful", "Rejected", "NoSoftware", "NoRepos", "NoRanges", "FixUnresolvable"
  ]

  /** `ConversionOutcome.String`: indexes the name table; a value outside
      the enumeration indexes past it (a Go panic), modelled as None. */
  function OutcomeString(c: int): (r: Option<string>)
    ensures r.Some? <==> FromCode(c).Some?
  {
    if 0 <= c < |OutcomeNames| then Some(OutcomeNames[c]) else None
  }

  /** Every outcome prints as its own name, and distinct outcomes print
      differently. */
  lemma OutcomeStringNamesOutcome(o: Outcome, o': Outcome)
    ensures FromCode(Code(o)) == Some(o)
    ensures OutcomeString(Code(o)).Some?
    ensures o != o' ==> OutcomeString(Code(o)) != OutcomeString(Code(o'))
  {
  }
}

=== FILE: repo_cache.dfy ===
/** The vendor/product repository cache: a map from (vendor, product) to
    the candidate repository URLs derived for it, in first-seen order. */
module RepoCache {
  import opened Wrappers
  import opened Seqs
  import opened VendorProducts

  type RepoMap = map<VendorProduct, seq<string>>

  /** The cache invariant: no entry is empty and no entry lists a URL twice. */
  predicate WellFormed(c: RepoMap)
  {
    forall vp :: vp in c ==> c[vp] != [] && NoDuplicates(c[vp])
  }

  /** Go's `cache[vp]`: the nil slice for a missing key. */
  function Entry(c: RepoMap, vp: VendorProduct): seq<string>
  {
    if vp in c then c[vp] else []
  }

  /** `r` agrees with `c` on every key except `vp`'s. */
  ghost predicate SameElsewhere(c: RepoMap, r: RepoMap, vp: Option<VendorProduct>)
  {
    forall k :: vp != Some(k) ==> (k in c <==> k in r) && (k in c ==> c[k] == r[k])
  }

  /** `maybeUpdateVPRepoCache`: appends `repo` to the entry for `vp` unless
      `vp` is nil or the entry already lists it. */
  function MaybeUpdate(c: RepoMap, vp: Option<VendorProduct>, repo: string): (r: RepoMap)
    ensures vp.None? ==> r == c
    ensures vp.Some? && repo in Entry(c, vp.value) ==> r == c
    ensures vp.Some? ==> vp.value in r && repo in r[vp.value]
    ensures vp.Some? ==> Entry(c, vp.value) <= r[vp.value] && |r[vp.value]| <= |Entry(c, vp.value)| + 1
    ensures SameElsewhere(c, r, vp)
    ensures WellFormed(c) ==> WellFormed(r)
  {
    if vp.None? then c
    else if repo in Entry(c, vp.value) then c
    else c[vp.value := Entry(c, vp.value) + [repo]]
  }

  /** Removing the element at `i` keeps the others in order and keeps a
      duplicate-free sequence duplicate-free. */
  lemma RemoveAt(e: seq<string>, i: nat)
    requires i < |e| && NoDuplicates(e)
    ensures NoDuplicates(e[..i] + e[i + 1..])
    ensures e[i] !in e[..i] + e[i + 1..]
    ensures forall x :: x in e[..i] + e[i + 1..] ==> x in e
  {
    var d := e[..i] + e[i + 1..];
    forall x | x in d ensures x in e {
      var j :| 0 <= j < |d| && d[j] == x;
      assert d[j] == e[if j < i then j else j + 1];
    }
    forall a, b | 0 <= a < b < |d|
      ensures d[a] != d[b]
    {
      var a' := if a < i then a else a + 1;
      var b' := if b < i then b else b + 1;
      assert d[a] == e[a'] && d[b] == e[b'];
    }
  }

  /** `maybeRemoveFromVPRepoCache`: removes the first occurrence of `repo`
      from the entry for `vp`, deleting the key when it held that one URL;
      no-op when `vp` is nil, the key is absent or the entry lacks `repo`.
      (Go's `i == -1` test after the membership test cannot fire.) */
  function MaybeRemove(c: RepoMap, vp: Option<VendorProduct>, repo: string): (r: RepoMap)
    ensures vp.None? || vp.value !in c || repo !in c[vp.value] ==> r == c
    ensures vp.Some? && vp.value in c && c[vp.value] == [repo] ==> vp.value !in r
    ensures vp.Some? && vp.value in c && repo in c[vp.value] && |c[vp.value]| > 1 ==>
      && vp.value in r
      && exists i :: 0 <= i < |c[vp.value]| && c[vp.value][i] == repo && repo !in c[vp.value][..i]
           && r[vp.value] == c[vp.value][..i] + c[vp.value][i + 1..]
    ensures SameElsewhere(c, r, vp)
    ensures WellFormed(c) ==> WellFormed(r) && (vp.Some? && vp.value in r ==> repo !in r[vp.value])
  {
    if vp.None? || vp.value !in c then c
    else
      var e := c[vp.value];
      if repo !in e then c
      else if |e| == 1 then c - {vp.value}
      else
        var i := FirstIndex(e, repo);
        assert NoDuplicates(e) ==> NoDuplicates(e[..i] + e[i + 1..]) && repo !in e[..i] + e[i + 1..] by {
          if NoDuplicates(e) {
            RemoveAt(e, i);
          }
        }
        c[vp.value := e[..i] + e[i + 1..]]
  }
}

=== FILE: resolver.dfy ===
/** Version-to-commit resolution (`GitVersionsToCommits`): turning the
    textual boundaries of the affected ranges into commits of candidate
    repositories. */
module Resolver {
  import opened Wrappers
  import opened Cves

  /** `v` extends `base`: same affected ranges, commits only appended. */
  predicate Extends(base: VersionInfo, v: VersionInfo)
  {
    v.affectedVersions == base.affectedVersions && base.affectedCommits <= v.affectedCommits
  }

  /** Every commit at index `from` or later that follows a Fixed commit of
      its repository is an Introduced one. */
  predicate FixedSuppressesLater(cs: seq<AffectedCommit>, from: nat)
  {
    forall i, j :: 0 <= i < j < |cs| && from <= j && cs[i].repo == cs[j].repo && cs[i].kind == Fixed ==>
      cs[j].kind == Introduced
  }

  /** `c` is the commit `git.VersionToCommit` gives for the boundary of c's
      kind in one of `avs`, on c's repository with the given tags. */
  ghost predicate DerivedFrom(c: AffectedCommit, avs: seq<AffectedVersion>, tags: Tags, col: Collaborators)
  {
    exists av :: av in avs && Boundary(av, c.kind) != ""
      && col.versionToCommit(Boundary(av, c.kind), c.repo, c.kind, tags) == Some(c.commit)
  }

  /** `c` belongs to one of `repos` whose tags normalised, and was derived
      from one of `avs` with those tags. */
  ghost predicate Justified(c: AffectedCommit, avs: seq<AffectedVersion>, repos: seq<string>, col: Collaborators)
  {
    && c.repo in repos
    && col.normalizeRepoTags(c.repo).Some?
    && DerivedFrom(c, avs, col.normalizeRepoTags(c.repo).value, col)
  }

  /** Some entry of `avs` has a fixed boundary `repo`'s tags resolve. */
  ghost predicate FixResolvable(avs: seq<AffectedVersion>, repo: string, repos: seq<string>, col: Collaborators)
  {
    && repo in repos
    && col.normalizeRepoTags(repo).Some?
    && exists av :: av in avs && av.fixed != ""
         && col.versionToCommit(av.fixed, repo, Fixed, col.normalizeRepoTags(repo).value).Some?
  }

  /** One `git.VersionToCommit` call; its commit is appended on success and
      the failure is dropped otherwise. */
  function AppendResolved(v: VersionInfo, version: string, repo: string, kind: CommitKind,
                          tags: Tags, col: Collaborators): VersionInfo
  {
    match col.versionToCommit(version, repo, kind, tags)
    case None => v
    case Some(h) => v.(affectedCommits := v.affectedCommits + [AffectedCommit(repo, kind, h)])
  }

  /** Appending one commit keeps FixedSuppressesLater when the commit is
      Introduced or its repository has no Fixed commit yet. */
  lemma AppendKeepsSuppression(v: VersionInfo, version: string, repo: string, kind: CommitKind,
                               tags: Tags, col: Collaborators, from: nat)
    ensures from <= |v.affectedCommits| && FixedSuppressesLater(v.affectedCommits, from)
            && (kind == Introduced || !HasFixedCommits(v, repo))
        ==> FixedSuppressesLater(AppendResolved(v, version, repo, kind, tags, col).affectedCommits, from)
  {
  }

  /** Recording a commit never takes a Fixed commit away. */
  lemma HasFixedCommitsMonotone(v: VersionInfo, w: VersionInfo, repo: string)
    requires v.affectedCommits <= w.affectedCommits
    ensures HasFixedCommits(v, repo) ==> HasFixedCommits(w, repo)
  {
    if HasFixedCommits(v, repo) {
      var i :| 0 <= i < |v.affectedCommits| && v.affectedCommits[i].repo == repo && v.affectedCommits[i].kind == Fixed;
      assert w.affectedCommits[i] == v.affectedCommits[i];
    }
  }

  /** The order in which one range's boundaries are tried. */
  function KindOrder(k: CommitKind): nat
  {
    match k
    case Introduced => 0
    case Fixed => 1
    case LastAffected => 2
  }

  /** The body of the inner loop for one repository and one affected range. */
  function ResolveEntry(v: VersionInfo, av: AffectedVersion, repo: string, tags: Tags, col: Collaborators): (r: VersionInfo)
    ensures Extends(v, r)
    ensures forall j :: |v.affectedCommits| <= j < |r.affectedCommits| ==>
      r.affectedCommits[j].repo == repo && DerivedFrom(r.affectedCommits[j], [av], tags, col)
    ensures FixedSuppressesLater(r.affectedCommits, |v.affectedCommits|)
    ensures av.introduced != "" && col.versionToCommit(av.introduced, repo, Introduced, tags).Some? ==>
      AffectedCommit(repo, Introduced, col.versionToCommit(av.introduced, repo, Introduced, tags).value) in r.affectedCommits
    ensures av.fixed != "" && col.versionToCommit(av.fixed, repo, Fixed, tags).Some? ==> HasFixedCommits(r, repo)
  {
    var n := |v.affectedCommits|;
    var v1 := if av.introduced != "" then AppendResolved(v, av.introduced, repo, Introduced, tags, col) else v;
    // Fixed: skipped when the repository already has a Fixed commit.
    var v2 := if HasFixedCommits(v1, repo) && av.fixed != "" then v1
              else if av.fixed != "" then AppendResolved(v1, av.fixed, repo, Fixed, tags, col)
              else v1;
    // LastAffected: only while the repository has no Fixed commit.
    var v3 := if !HasFixedCommits(v2, repo) && av.lastAffected != "" then AppendResolved(v2, av.lastAffected, repo, LastAffected, tags, col)
              else v2;
    AppendKeepsSuppression(v, av.introduced, repo, Introduced, tags, col, n);
    AppendKeepsSuppression(v1, av.fixed, repo, Fixed, tags, col, n);
    AppendKeepsSuppression(v2, av.lastAffected, repo, LastAffected, tags, col, n);
    HasFixedCommitsMonotone(v1, v2, repo);
    HasFixedCommitsMonotone(v2, v3, repo);
    assert av.fixed != "" && !HasFixedCommits(v1, repo) && col.versionToCommit(av.fixed, repo, Fixed, tags).Some? ==>
      v2.affectedCommits[|v1.affectedCommits|] == AffectedCommit(repo, Fixed, col.versionToCommit(av.fixed, repo, Fixed, tags).value);
    assert av in [av];
    v3
  }

  /** After one range a repository has a Fixed commit only if it had one
      before or the range's own fixed boundary resolves. */
  lemma FixedAfterEntry(v: VersionInfo, av: AffectedVersion, repo: string, tags: Tags, col: Collaborators)
    ensures HasFixedCommits(ResolveEntry(v, av, repo, tags, col), repo) ==>
      HasFixedCommits(v, repo) || (av.fixed != "" && col.versionToCommit(av.fixed, repo, Fixed, tags).Some?)
  {
    var r := ResolveEntry(v, av, repo, tags, col);
    if HasFixedCommits(r, repo) && !HasFixedCommits(v, repo) {
      var i :| 0 <= i < |r.affectedCommits| && r.affectedCommits[i].repo == repo && r.affectedCommits[i].kind == Fixed;
      assert DerivedFrom(r.affectedCommits[i], [av], tags, col);
    }
  }

  /** From index `from` on, commit kinds strictly increase in the order a
      range's boundaries are tried: at most one commit of each kind. */
  predicate AppendedInOrder(cs: seq<AffectedCommit>, from: nat)
  {
    forall i, j :: from <= i < j < |cs| ==> KindOrder(cs[i].kind) < KindOrder(cs[j].kind)
  }

  /** Every commit from index `from` on has a kind tried no later than `kind`. */
  predicate KindsUpTo(cs: seq<AffectedCommit>, from: nat, kind: CommitKind)
  {
    forall j :: from <= j < |cs| ==> KindOrder(cs[j].kind) <= KindOrder(kind)
  }

  lemma AppendResolvedOrder(v: VersionInfo, version: string, repo: string, kind: CommitKind, tags: Tags,
                            col: Collaborators, from: nat)
    requires from <= |v.affectedCommits| && AppendedInOrder(v.affectedCommits, from)
    requires forall j :: from <= j < |v.affectedCommits| ==> KindOrder(v.affectedCommits[j].kind) < KindOrder(kind)
    ensures var w := AppendResolved(v, version, repo, kind, tags, col);
      AppendedInOrder(w.affectedCommits, from) && KindsUpTo(w.affectedCommits, from, kind)
  {
  }

  /** One range appends at most one commit of each kind, in the order
      introduced, fixed, last-affected; and when the range's own fixed
      boundary resolves it appends no LastAffected commit, since its Fixed
      commit is recorded first and suppresses it. */
  lemma ResolveEntryShape(v: VersionInfo, av: AffectedVersion, repo: string, tags: Tags, col: Collaborators)
    ensures var r := ResolveEntry(v, av, repo, tags, col);
      && AppendedInOrder(r.affectedCommits, |v.affectedCommits|)
      && (av.fixed != "" && col.versionToCommit(av.fixed, repo, Fixed, tags).Some? ==>
            forall j :: |v.affectedCommits| <= j < |r.affectedCommits| ==> r.affectedCommits[j].kind != LastAffected)
  {
    var n := |v.affectedCommits|;
    var v1 := if av.introduced != "" then AppendResolved(v, av.introduced, repo, Introduced, tags, col) else v;
    var v2 := if HasFixedCommits(v1, repo) && av.fixed != "" then v1
              else if av.fixed != "" then AppendResolved(v1, av.fixed, repo, Fixed, tags, col)
              else v1;
    var v3 := if !HasFixedCommits(v2, repo) && av.lastAffected != "" then AppendResolved(v2, av.lastAffected, repo, LastAffected, tags, col)
              else v2;
    assert ResolveEntry(v, av, repo, tags, col) == v3;
    AppendResolvedOrder(v, av.introduced, repo, Introduced, tags, col, n);
    assert AppendedInOrder(v1.affectedCommits, n) && KindsUpTo(v1.affectedCommits, n, Introduced);
    AppendResolvedOrder(v1, av.fixed, repo, Fixed, tags, col, n);
    assert AppendedInOrder(v2.affectedCommits, n) && KindsUpTo(v2.affectedCommits, n, Fixed);
    AppendResolvedOrder(v2, av.lastAffected, repo, LastAffected, tags, col, n);
    if av.fixed != "" && col.versionToCommit(av.fixed, repo, Fixed, tags).Some? {
      if !HasFixedCommits(v1, repo) {
        assert v2.affectedCommits[|v1.affectedCommits|].repo == repo;
        assert v2.affectedCommits[|v1.affectedCommits|].kind == Fixed;
      }
      assert HasFixedCommits(v2, repo);
    }
  }

  /** A last-affected boundary that resolves is recorded for the range,
      unless the repository had a Fixed commit before the range or the
      range's own fixed boundary resolves (that Fixed commit, appended
      first, suppresses it). */
  lemma ResolveEntryRecordsLastAffected(v: VersionInfo, av: AffectedVersion, repo: string, tags: Tags,
                                        col: Collaborators)
    requires av.lastAffected != "" && col.versionToCommit(av.lastAffected, repo, LastAffected, tags).Some?
    ensures var r := ResolveEntry(v, av, repo, tags, col);
      || HasFixedCommits(v, repo)
      || (av.fixed != "" && col.versionToCommit(av.fixed, repo, Fixed, tags).Some?)
      || AffectedCommit(repo, LastAffected, col.versionToCommit(av.lastAffected, repo, LastAffected, tags).value)
           in r.affectedCommits
  {
    var v1 := if av.introduced != "" then AppendResolved(v, av.introduced, repo, Introduced, tags, col) else v;
    var v2 := if HasFixedCommits(v1, repo) && av.fixed != "" then v1
              else if av.fixed != "" then AppendResolved(v1, av.fixed, repo, Fixed, tags, col)
              else v1;
    assert ResolveEntry(v, av, repo, tags, col)
        == if !HasFixedCommits(v2, repo) then AppendResolved(v2, av.lastAffected, repo, LastAffected, tags, col) else v2;
    if !HasFixedCommits(v2, repo) {
      var r := AppendResolved(v2, av.lastAffected, repo, LastAffected, tags, col);
      assert r.affectedCommits[|v2.affectedCommits|]
          == AffectedCommit(repo, LastAffected, col.versionToCommit(av.lastAffected, repo, LastAffected, tags).value);
    } else {
      FixedAfterEntry(v, av, repo, tags, col);
    }
  }

  /** FixedSuppressesLater from `from` on survives a further extension that
      respects it from the old length on. */
  lemma SuppressionComposes(a: seq<AffectedCommit>, b: seq<AffectedCommit>, from: nat)
    requires from <= |a| && a <= b
    requires FixedSuppressesLater(a, from) && FixedSuppressesLater(b, |a|)
    ensures FixedSuppressesLater(b, from)
  {
    forall i, j | 0 <= i < j < |b| && from <= j && b[i].repo == b[j].repo && b[i].kind == Fixed
      ensures b[j].kind == Introduced
    {
      if j < |a| {
        assert a[i] == b[i] && a[j] == b[j];
      }
    }
  }

  /** A commit derived from a sub-list of ranges is derived from the list. */
  lemma DerivedFromWider(cs: seq<AffectedCommit>, lo: nat, sub: seq<AffectedVersion>, avs: seq<AffectedVersion>,
                         tags: Tags, col: Collaborators)
    requires forall x :: x in sub ==> x in avs
    requires forall j :: lo <= j < |cs| ==> DerivedFrom(cs[j], sub, tags, col)
    ensures forall j :: lo <= j < |cs| ==> DerivedFrom(cs[j], avs, tags, col)
  {
  }

  /** The inner loop: every affected range, in order, for one repository. */
  function ResolveEntries(v: VersionInfo, avs: seq<AffectedVersion>, repo: string, tags: Tags,
                          col: Collaborators): (r: VersionInfo)
    ensures Extends(v, r)
    ensures forall j :: |v.affectedCommits| <= j < |r.affectedCommits| ==>
      r.affectedCommits[j].repo == repo && DerivedFrom(r.affectedCommits[j], avs, tags, col)
    ensures FixedSuppressesLater(r.affectedCommits, |v.affectedCommits|)
    decreases |avs|
  {
    if avs == [] then v
    else
      var v1 := ResolveEntry(v, avs[0], repo, tags, col);
      var r := ResolveEntries(v1, avs[1..], repo, tags, col);
      SuppressionComposes(v1.affectedCommits, r.affectedCommits, |v.affectedCommits|);
      DerivedFromWider(v1.affectedCommits, |v.affectedCommits|, [avs[0]], avs, tags, col);
      DerivedFromWider(r.affectedCommits, |v1.affectedCommits|, avs[1..], avs, tags, col);
      r
  }

  /** The outer loop: every candidate repository, in order; a repository
      whose tags fail to normalise is skipped. */
  function ResolveRepos(v: VersionInfo, avs: seq<AffectedVersion>, repos: seq<string>,
                        col: Collaborators): (r: VersionInfo)
    ensures Extends(v, r)
    ensures forall j :: |v.affectedCommits| <= j < |r.affectedCommits| ==> Justified(r.affectedCommits[j], avs, repos, col)
    ensures FixedSuppressesLater(r.affectedCommits, |v.affectedCommits|)
    decreases |repos|
  {
    if repos == [] then v
    else match col.normalizeRepoTags(repos[0])
      case None => ResolveRepos(v, avs, repos[1..], col)
      case Some(tags) =>
        var v1 := ResolveEntries(v, avs, repos[0], tags, col);
        var r := ResolveRepos(v1, avs, repos[1..], col);
        SuppressionComposes(v1.affectedCommits, r.affectedCommits, |v.affectedCommits|);
        r
  }

  /** `GitVersionsToCommits`. It cannot fail (its error result is always
      nil); the affected ranges are kept; commits are only appended; each
      appended commit was resolved by `git.VersionToCommit` from a boundary
      of its kind, on a candidate repository whose tags normalised; and no
      Fixed or LastAffected commit is appended after a Fixed commit of the
      same repository. */
  function GitVersionsToCommits(versions: VersionInfo, repos: seq<string>, col: Collaborators): (r: VersionInfo)
    ensures Extends(versions, r)
    ensures forall j :: |versions.affectedCommits| <= j < |r.affectedCommits| ==>
      Justified(r.affectedCommits[j], versions.affectedVersions, repos, col)
    ensures FixedSuppressesLater(r.affectedCommits, |versions.affectedCommits|)
  {
    ResolveRepos(versions, versions.affectedVersions, repos, col)
  }

  /** A repository that already has a Fixed commit gains only Introduced
      commits. */
  lemma PreexistingFixSuppresses(versions: VersionInfo, repos: seq<string>, col: Collaborators, repo: string)
    requires HasFixedCommits(versions, repo)
    ensures var out := GitVersionsToCommits(versions, repos, col).affectedCommits;
      forall j :: |versions.affectedCommits| <= j < |out| && out[j].repo == repo ==> out[j].kind == Introduced
  {
    var out := GitVersionsToCommits(versions, repos, col).affectedCommits;
    var i :| 0 <= i < |versions.affectedCommits| && versions.affectedCommits[i].repo == repo
             && versions.affectedCommits[i].kind == Fixed;
    assert out[i] == versions.affectedCommits[i];
  }

  lemma InPrefix<T>(x: T, a: seq<T>, b: seq<T>)
    requires x in a && a <= b
    ensures x in b
  {
    var i :| 0 <= i < |a| && a[i] == x;
    assert b[i] == x;
  }

  /** Every introduced boundary that resolves is recorded, per repository. */
  lemma {:induction false} IntroducedRecordedEntries(v: VersionInfo, avs: seq<AffectedVersion>, repo: string,
                                                     tags: Tags, col: Collaborators, av: AffectedVersion)
    requires av in avs && av.introduced != ""
    requires col.versionToCommit(av.introduced, repo, Introduced, tags).Some?
    ensures AffectedCommit(repo, Introduced, col.versionToCommit(av.introduced, repo, Introduced, tags).value)
            in ResolveEntries(v, avs, repo, tags, col).affectedCommits
    decreases |avs|
  {
    var c := AffectedCommit(repo, Introduced, col.versionToCommit(av.introduced, repo, Introduced, tags).value);
    var v1 := ResolveEntry(v, avs[0], repo, tags, col);
    if avs[0] == av {
      InPrefix(c, v1.affectedCommits, ResolveEntries(v1, avs[1..], repo, tags, col).affectedCommits);
    } else {
      IntroducedRecordedEntries(v1, avs[1..], repo, tags, col, av);
    }
  }

  /** Every introduced boundary that resolves on a candidate repository
      whose tags normalise is recorded. */
  lemma {:induction false} IntroducedRecorded(v: VersionInfo, avs: seq<AffectedVersion>, repos: seq<string>,
                                              col: Collaborators, repo: string, av: AffectedVersion)
    requires repo in repos && col.normalizeRepoTags(repo).Some?
    requires av in avs && av.introduced != ""
    requires col.versionToCommit(av.introduced, repo, Introduced, col.normalizeRepoTags(repo).value).Some?
    ensures AffectedCommit(repo, Introduced,
              col.versionToCommit(av.introduced, repo, Introduced, col.normalizeRepoTags(repo).value).value)
            in ResolveRepos(v, avs, repos, col).affectedCommits
    decreases |repos|
  {
    var tags := col.normalizeRepoTags(repo).value;
    var c := AffectedCommit(repo, Introduced, col.versionToCommit(av.introduced, repo, Introduced, tags).value);
    if repos[0] == repo {
      var v1 := ResolveEntries(v, avs, repo, tags, col);
      IntroducedRecordedEntries(v, avs, repo, tags, col, av);
      InPrefix(c, v1.affectedCommits, ResolveRepos(v1, avs, repos[1..], col).affectedCommits);
    } else {
      var v1 := match col.normalizeRepoTags(repos[0])
        case None => v
        case Some(t) => ResolveEntries(v, avs, repos[0], t, col);
      assert ResolveRepos(v, avs, repos, col) == ResolveRepos(v1, avs, repos[1..], col);
      IntroducedRecorded(v1, avs, repos[1..], col, repo, av);
    }
  }

  /** A fixed boundary that resolves leaves the repository with a Fixed commit. */
  lemma {:induction false} FixedFoundEntries(v: VersionInfo, avs: seq<AffectedVersion>, repo: string,
                                             tags: Tags, col: Collaborators, av: AffectedVersion)
    requires av in avs && av.fixed != ""
    requires col.versionToCommit(av.fixed, repo, Fixed, tags).Some?
    ensures HasFixedCommits(ResolveEntries(v, avs, repo, tags, col), repo)
    decreases |avs|
  {
    var v1 := ResolveEntry(v, avs[0], repo, tags, col);
    if avs[0] == av {
      HasFixedCommitsMonotone(v1, ResolveEntries(v1, avs[1..], repo, tags, col), repo);
    } else {
      FixedFoundEntries(v1, avs[1..], repo, tags, col, av);
    }
  }

  /** ... and so does resolution over all candidate repositories. */
  lemma {:induction false} FixedFound(v: VersionInfo, avs: seq<AffectedVersion>, repos: seq<string>,
                                      col: Collaborators, repo: string)
    requires FixResolvable(avs, repo, repos, col)
    ensures HasFixedCommits(ResolveRepos(v, avs, repos, col), repo)
    decreases |repos|
  {
    var tags := col.normalizeRepoTags(repo).value;
    if repos[0] == repo {
      var v1 := ResolveEntries(v, avs, repo, tags, col);
      var av :| av in avs && av.fixed != "" && col.versionToCommit(av.fixed, repo, Fixed, tags).Some?;
      FixedFoundEntries(v, avs, repo, tags, col, av);
      HasFixedCommitsMonotone(v1, ResolveRepos(v1, avs, repos[1..], col), repo);
    } else {
      var v1 := match col.normalizeRepoTags(repos[0])
        case None => v
        case Some(t) => ResolveEntries(v, avs, repos[0], t, col);
      assert ResolveRepos(v, avs, repos, col) == ResolveRepos(v1, avs, repos[1..], col);
      FixedFound(v1, avs, repos[1..], col, repo);
    }
  }

  /** The fixed boundary of one of the ranges up to index `k` resolves on
      `repo` with `tags`. */
  ghost predicate FixResolvesUpTo(avs: seq<AffectedVersion>, k: nat, repo: string, tags: Tags, col: Collaborators)
  {
    exists k' :: 0 <= k' <= k && k' < |avs| && avs[k'].fixed != ""
      && col.versionToCommit(avs[k'].fixed, repo, Fixed, tags).Some?
  }

  /** Resolving another repository adds no Fixed commit for `repo`. */
  lemma OtherRepoAddsNoFix(v: VersionInfo, avs: seq<AffectedVersion>, other: string, tags: Tags,
                           col: Collaborators, repo: string)
    requires other != repo
    ensures HasFixedCommits(ResolveEntries(v, avs, other, tags, col), repo) ==> HasFixedCommits(v, repo)
  {
    var r := ResolveEntries(v, avs, other, tags, col);
    if HasFixedCommits(r, repo) {
      var i :| 0 <= i < |r.affectedCommits| && r.affectedCommits[i].repo == repo && r.affectedCommits[i].kind == Fixed;
      assert v.affectedCommits[i] == r.affectedCommits[i];
    }
  }

  /** A last-affected boundary of range `k` that resolves is recorded for
      the repository unless it had a Fixed commit before, or the fixed
      boundary of range `k` or of an earlier range resolves. */
  lemma {:induction false} LastAffectedRecordedEntries(v: VersionInfo, avs: seq<AffectedVersion>, repo: string,
                                                       tags: Tags, col: Collaborators, k: nat)
    requires k < |avs| && avs[k].lastAffected != ""
    requires col.versionToCommit(avs[k].lastAffected, repo, LastAffected, tags).Some?
    ensures var r := ResolveEntries(v, avs, repo, tags, col);
      || HasFixedCommits(v, repo)
      || FixResolvesUpTo(avs, k, repo, tags, col)
      || AffectedCommit(repo, LastAffected, col.versionToCommit(avs[k].lastAffected, repo, LastAffected, tags).value)
           in r.affectedCommits
    decreases |avs|
  {
    var c := AffectedCommit(repo, LastAffected, col.versionToCommit(avs[k].lastAffected, repo, LastAffected, tags).value);
    var v1 := ResolveEntry(v, avs[0], repo, tags, col);
    var r := ResolveEntries(v1, avs[1..], repo, tags, col);
    if k == 0 {
      ResolveEntryRecordsLastAffected(v, avs[0], repo, tags, col);
      if c in v1.affectedCommits {
        InPrefix(c, v1.affectedCommits, r.affectedCommits);
      }
    } else {
      assert avs[1..][k - 1] == avs[k];
      LastAffectedRecordedEntries(v1, avs[1..], repo, tags, col, k - 1);
      FixedAfterEntry(v, avs[0], repo, tags, col);
      if FixResolvesUpTo(avs[1..], k - 1, repo, tags, col) {
        var k' :| 0 <= k' <= k - 1 && k' < |avs[1..]| && avs[1..][k'].fixed != ""
          && col.versionToCommit(avs[1..][k'].fixed, repo, Fixed, tags).Some?;
        assert avs[1..][k'] == avs[k' + 1];
      }
    }
  }

  /** A last-affected boundary of range `k` that resolves on a candidate
      repository whose tags normalise is recorded, unless the repository had
      a Fixed commit before resolution, or the fixed boundary of range `k`
      or of an earlier range resolves on it. */
  lemma {:induction false} LastAffectedRecorded(v: VersionInfo, avs: seq<AffectedVersion>, repos: seq<string>,
                                                col: Collaborators, repo: string, k: nat)
    requires repo in repos && col.normalizeRepoTags(repo).Some?
    requires k < |avs| && avs[k].lastAffected != ""
    requires col.versionToCommit(avs[k].lastAffected, repo, LastAffected, col.normalizeRepoTags(repo).value).Some?
    ensures var r := ResolveRepos(v, avs, repos, col);
      var tags := col.normalizeRepoTags(repo).value;
      || HasFixedCommits(v, repo)
      || FixResolvesUpTo(avs, k, repo, tags, col)
      || AffectedCommit(repo, LastAffected, col.versionToCommit(avs[k].lastAffected, repo, LastAffected, tags).value)
           in r.affectedCommits
    decreases |repos|
  {
    var tags := col.normalizeRepoTags(repo).value;
    var c := AffectedCommit(repo, LastAffected, col.versionToCommit(avs[k].lastAffected, repo, LastAffected, tags).value);
    if repos[0] == repo {
      var v1 := ResolveEntries(v, avs, repo, tags, col);
      var r := ResolveRepos(v1, avs, repos[1..], col);
      LastAffectedRecordedEntries(v, avs, repo, tags, col, k);
      if c in v1.affectedCommits {
        InPrefix(c, v1.affectedCommits, r.affectedCommits);
      }
    } else {
      var v1 := match col.normalizeRepoTags(repos[0])
        case None => v
        case Some(t) => ResolveEntries(v, avs, repos[0], t, col);
      assert ResolveRepos(v, avs, repos, col) == ResolveRepos(v1, avs, repos[1..], col);
      LastAffectedRecorded(v1, avs, repos[1..], col, repo, k);
      if col.normalizeRepoTags(repos[0]).Some? {
        OtherRepoAddsNoFix(v, avs, repos[0], col.normalizeRepoTags(repos[0]).value, col, repo);
      }
    }
  }

  /** `c`'s hash is what the last-affected boundary of range `k` resolves
      to on c's repository, while no fixed boundary of range `k` or an
      earlier range resolves there. */
  ghost predicate LastAffectedFromRange(c: AffectedCommit, avs: seq<AffectedVersion>, k: nat, tags: Tags,
                                        col: Collaborators)
  {
    && k < |avs|
    && avs[k].lastAffected != ""
    && col.versionToCommit(avs[k].lastAffected, c.repo, LastAffected, tags) == Some(c.commit)
    && !FixResolvesUpTo(avs, k, c.repo, tags, col)
  }

  /** `c` may be recorded as a LastAffected commit of its repository: the
      repository had no Fixed commit before resolution, and some range
      yields c as in LastAffectedFromRange. */
  ghost predicate LastAffectedAllowed(c: AffectedCommit, v: VersionInfo, avs: seq<AffectedVersion>, tags: Tags,
                                      col: Collaborators)
  {
    !HasFixedCommits(v, c.repo) && exists k: nat :: LastAffectedFromRange(c, avs, k, tags, col)
  }

  lemma FixResolvesUpToCons(avs: seq<AffectedVersion>, k: nat, repo: string, tags: Tags, col: Collaborators)
    requires 0 < k < |avs|
    ensures FixResolvesUpTo(avs, k, repo, tags, col) <==>
      (avs[0].fixed != "" && col.versionToCommit(avs[0].fixed, repo, Fixed, tags).Some?)
      || FixResolvesUpTo(avs[1..], k - 1, repo, tags, col)
  {
    if FixResolvesUpTo(avs, k, repo, tags, col) {
      var k' :| 0 <= k' <= k && k' < |avs| && avs[k'].fixed != ""
        && col.versionToCommit(avs[k'].fixed, repo, Fixed, tags).Some?;
      if k' > 0 {
        assert avs[1..][k' - 1] == avs[k'];
      }
    }
    if FixResolvesUpTo(avs[1..], k - 1, repo, tags, col) {
      var k' :| 0 <= k' <= k - 1 && k' < |avs[1..]| && avs[1..][k'].fixed != ""
        && col.versionToCommit(avs[1..][k'].fixed, repo, Fixed, tags).Some?;
      assert avs[1..][k'] == avs[k' + 1];
    }
  }

  /** A range yielding `c` in the tail yields it in the whole list when the
      first range's fixed boundary does not resolve. */
  lemma LastAffectedFromRangeCons(c: AffectedCommit, avs: seq<AffectedVersion>, k: nat, tags: Tags, col: Collaborators)
    requires avs != [] && LastAffectedFromRange(c, avs[1..], k, tags, col)
    requires !(avs[0].fixed != "" && col.versionToCommit(avs[0].fixed, c.repo, Fixed, tags).Some?)
    ensures LastAffectedFromRange(c, avs, k + 1, tags, col)
  {
    assert avs[1..][k] == avs[k + 1];
    FixResolvesUpToCons(avs, k + 1, c.repo, tags, col);
  }

  /** A LastAffected commit one range appends comes from that range's
      last-affected boundary, on a repository with no Fixed commit before
      the range and whose fixed boundary in the range does not resolve. */
  lemma LastAffectedOnlyUnfixedEntry(v: VersionInfo, av: AffectedVersion, repo: string, tags: Tags, col: Collaborators)
    ensures var r := ResolveEntry(v, av, repo, tags, col);
      forall j :: |v.affectedCommits| <= j < |r.affectedCommits| && r.affectedCommits[j].kind == LastAffected ==>
        && !HasFixedCommits(v, repo)
        && !(av.fixed != "" && col.versionToCommit(av.fixed, repo, Fixed, tags).Some?)
        && av.lastAffected != ""
        && col.versionToCommit(av.lastAffected, repo, LastAffected, tags) == Some(r.affectedCommits[j].commit)
  {
    var r := ResolveEntry(v, av, repo, tags, col);
    ResolveEntryShape(v, av, repo, tags, col);
    forall j | |v.affectedCommits| <= j < |r.affectedCommits| && r.affectedCommits[j].kind == LastAffected
      ensures col.versionToCommit(av.lastAffected, repo, LastAffected, tags) == Some(r.affectedCommits[j].commit)
    {
      assert DerivedFrom(r.affectedCommits[j], [av], tags, col);
    }
  }

  /** The LastAffected commit at index `j` that the ranges append for one
      repository is allowed by LastAffectedAllowed. */
  lemma {:induction false} LastAffectedOnlyUnfixedEntries(v: VersionInfo, avs: seq<AffectedVersion>, repo: string,
                                                          tags: Tags, col: Collaborators, j: nat)
    requires |v.affectedCommits| <= j < |ResolveEntries(v, avs, repo, tags, col).affectedCommits|
    requires ResolveEntries(v, avs, repo, tags, col).affectedCommits[j].kind == LastAffected
    ensures LastAffectedAllowed(ResolveEntries(v, avs, repo, tags, col).affectedCommits[j], v, avs, tags, col)
    decreases |avs|
  {
    var v1 := ResolveEntry(v, avs[0], repo, tags, col);
    var r := ResolveEntries(v1, avs[1..], repo, tags, col);
    assert ResolveEntries(v, avs, repo, tags, col) == r;
    var c := r.affectedCommits[j];
    assert c.repo == repo;
    HasFixedCommitsMonotone(v, v1, repo);
    if j < |v1.affectedCommits| {
      LastAffectedOnlyUnfixedEntry(v, avs[0], repo, tags, col);
      assert v1.affectedCommits[j] == c;
      assert LastAffectedFromRange(c, avs, 0, tags, col);
    } else {
      LastAffectedOnlyUnfixedEntries(v1, avs[1..], repo, tags, col, j);
      var k: nat :| LastAffectedFromRange(c, avs[1..], k, tags, col);
      LastAffectedFromRangeCons(c, avs, k, tags, col);
    }
  }

  /** The LastAffected commit at index `j` that resolution appends belongs
      to a candidate repository whose tags normalise, and is allowed by
      LastAffectedAllowed with those tags: the converse of
      LastAffectedRecorded. */
  lemma {:induction false} LastAffectedOnlyUnfixed(v: VersionInfo, avs: seq<AffectedVersion>, repos: seq<string>,
                                                   col: Collaborators, j: nat)
    requires |v.affectedCommits| <= j < |ResolveRepos(v, avs, repos, col).affectedCommits|
    requires ResolveRepos(v, avs, repos, col).affectedCommits[j].kind == LastAffected
    ensures var c := ResolveRepos(v, avs, repos, col).affectedCommits[j];
      col.normalizeRepoTags(c.repo).Some? && LastAffectedAllowed(c, v, avs, col.normalizeRepoTags(c.repo).value, col)
    decreases |repos|
  {
    var v1 := match col.normalizeRepoTags(repos[0])
      case None => v
      case Some(t) => ResolveEntries(v, avs, repos[0], t, col);
    var r := ResolveRepos(v1, avs, repos[1..], col);
    assert ResolveRepos(v, avs, repos, col) == r;
    var c := r.affectedCommits[j];
    if j < |v1.affectedCommits| {
      assert v1.affectedCommits[j] == c;
      LastAffectedOnlyUnfixedEntries(v, avs, repos[0], col.normalizeRepoTags(repos[0]).value, col, j);
    } else {
      LastAffectedOnlyUnfixed(v1, avs, repos[1..], col, j);
      HasFixedCommitsMonotone(v, v1, c.repo);
    }
  }

  /** For `GitVersionsToCommits`: a LastAffected commit is appended only for
      a range whose last-affected boundary resolves on a candidate
      repository with no prior Fixed commit, while no fixed boundary of that
      range or an earlier one resolves there. */
  lemma LastAffectedOnlyIfUnfixed(versions: VersionInfo, repos: seq<string>, col: Collaborators)
    ensures var r := GitVersionsToCommits(versions, repos, col);
      forall j :: |versions.affectedCommits| <= j < |r.affectedCommits| && r.affectedCommits[j].kind == LastAffected ==>
        && r.affectedCommits[j].repo in repos
        && col.normalizeRepoTags(r.affectedCommits[j].repo).Some?
        && LastAffectedAllowed(r.affectedCommits[j], versions, versions.affectedVersions,
                               col.normalizeRepoTags(r.affectedCommits[j].repo).value, col)
  {
    var r := GitVersionsToCommits(versions, repos, col);
    forall j | |versions.affectedCommits| <= j < |r.affectedCommits| && r.affectedCommits[j].kind == LastAffected
      ensures r.affectedCommits[j].repo in repos
      ensures col.normalizeRepoTags(r.affectedCommits[j].repo).Some?
      ensures LastAffectedAllowed(r.affectedCommits[j], versions, versions.affectedVersions,
                                  col.normalizeRepoTags(r.affectedCommits[j].repo).value, col)
    {
      assert Justified(r.affectedCommits[j], versions.affectedVersions, repos, col);
      LastAffectedOnlyUnfixed(versions, versions.affectedVersions, repos, col, j);
    }
  }

  /** Some boundary of some range resolves, with its own kind, on some
      candidate repository whose tags normalise. */
  ghost predicate SomeBoundaryResolves(avs: seq<AffectedVersion>, repos: seq<string>, col: Collaborators)
  {
    exists repo, av, kind :: repo in repos && col.normalizeRepoTags(repo).Some? && av in avs && Boundary(av, kind) != ""
      && col.versionToCommit(Boundary(av, kind), repo, kind, col.normalizeRepoTags(repo).value).Some?
  }

  /** Resolution leaves the commit list empty exactly when it was empty and
      no boundary resolves on any candidate repository. */
  lemma ResolvesNothingIff(versions: VersionInfo, repos: seq<string>, col: Collaborators)
    ensures GitVersionsToCommits(versions, repos, col).affectedCommits == [] <==>
      versions.affectedCommits == [] && !SomeBoundaryResolves(versions.affectedVersions, repos, col)
  {
    var avs := versions.affectedVersions;
    var out := GitVersionsToCommits(versions, repos, col);
    if out.affectedCommits != [] && versions.affectedCommits == [] {
      var c := out.affectedCommits[0];
      assert Justified(c, avs, repos, col);
      var tags := col.normalizeRepoTags(c.repo).value;
      var av :| av in avs && Boundary(av, c.kind) != "" && col.versionToCommit(Boundary(av, c.kind), c.repo, c.kind, tags) == Some(c.commit);
      assert SomeBoundaryResolves(avs, repos, col);
    }
    if SomeBoundaryResolves(avs, repos, col) {
      var repo, av, kind :| repo in repos && col.normalizeRepoTags(repo).Some? && av in avs && Boundary(av, kind) != ""
        && col.versionToCommit(Boundary(av, kind), repo, kind, col.normalizeRepoTags(repo).value).Some?;
      match kind
      case Introduced =>
        IntroducedRecorded(versions, avs, repos, col, repo, av);
      case Fixed =>
        assert FixResolvable(avs, repo, repos, col);
        FixedFound(versions, avs, repos, col, repo);
      case LastAffected =>
        var k :| 0 <= k < |avs| && avs[k] == av;
        LastAffectedRecorded(versions, avs, repos, col, repo, k);
        var tags := col.normalizeRepoTags(repo).value;
        if FixResolvesUpTo(avs, k, repo, tags, col) {
          var k' :| 0 <= k' <= k && k' < |avs| && avs[k'].fixed != "" && col.versionToCommit(avs[k'].fixed, repo, Fixed, tags).Some?;
          assert avs[k'] in avs;
          FixedFound(versions, avs, repos, col, repo);
        }
    }
  }

  /** After resolution a repository has a Fixed commit exactly when it had
      one before or one of its fixed boundaries resolves. */
  lemma FixedCommitIff(versions: VersionInfo, repos: seq<string>, col: Collaborators, repo: string)
    ensures HasFixedCommits(GitVersionsToCommits(versions, repos, col), repo) <==>
      HasFixedCommits(versions, repo) || FixResolvable(versions.affectedVersions, repo, repos, col)
  {
    var out := GitVersionsToCommits(versions, repos, col);
    HasFixedCommitsMonotone(versions, out, repo);
    if FixResolvable(versions.affectedVersions, repo, repos, col) {
      FixedFound(versions, versions.affectedVersions, repos, col, repo);
    }
    if HasFixedCommits(out, repo) && !HasFixedCommits(versions, repo) {
      var i :| 0 <= i < |out.affectedCommits| && out.affectedCommits[i].repo == repo && out.affectedCommits[i].kind == Fixed;
      assert Justified(out.affectedCommits[i], versions.affectedVersions, repos, col);
    }
  }
}

=== FILE: scope_filters.dfy ===
/** The two static deny lists that veto candidate data before it reaches
    the cache or the output. */
module ScopeFilters {
  import opened VendorProducts

  /** Reference tags that take a reference out of consideration. */
  const RefTagDenyList: seq<string> := ["Broken Link"]

  /** Vendor/product pairs known not to be open source; an empty product
      stands for every product of the vendor. */
  const VendorProductDenyList: seq<VendorProduct> := [
    VendorProduct("netapp", ""),
    VendorProduct("oracle", "zfs_storage_appliance_kit"),
    VendorProduct("gradle", "enterprise")
  ]

  /** The two membership tests the main loop applies to an application CPE
      before mining references for it. */
  predicate VendorProductDenied(vendor: string, product: string)
  {
    || VendorProduct(vendor, "") in VendorProductDenyList
    || VendorProduct(vendor, product) in VendorProductDenyList
  }

  /** Every product of netapp is denied; oracle and gradle only for the one
      listed product each; nothing else. */
  lemma DeniedVendorProducts(vendor: string, product: string)
    ensures VendorProductDenied(vendor, product) <==>
      || vendor == "netapp"
      || (vendor == "oracle" && product == "zfs_storage_appliance_kit")
      || (vendor == "gradle" && product == "enterprise")
  {
  }
}

=== FILE: seqs.dfy ===
/** Sequence helpers: duplicate-freedom, first-occurrence de-duplication and
    the "append what is missing" loop the converter uses in several places. */
module Seqs {

  /** No element occurs twice. */
  predicate NoDuplicates<T(==)>(s: seq<T>)
  {
    forall i, j :: 0 <= i < j < |s| ==> s[i] != s[j]
  }

  /** Position of the first occurrence of `x` in `s` (Go's `slices.Index`). */
  function FirstIndex<T(==)>(s: seq<T>, x: T): (i: nat)
    requires x in s
    ensures i < |s| && s[i] == x
    ensures x !in s[..i]
    decreases |s|
  {
    if s[0] == x then 0 else 1 + FirstIndex(s[1..], x)
  }

  /** First-occurrence de-duplication: each element is kept where it first
      appears, later repeats are dropped. */
  function Dedup<T(==)>(s: seq<T>): (d: seq<T>)
    ensures NoDuplicates(d)
    ensures forall x :: x in d ==> x in s
    ensures forall x :: x in s ==> x in d
    decreases |s|
  {
    if s == [] then []
    else
      var d := Dedup(s[..|s| - 1]);
      var x := s[|s| - 1];
      assert s == s[..|s| - 1] + [x];
      if x in d then d else d + [x]
  }

  /** Dedup lists elements in the order of their first occurrence in `s`. */
  lemma {:induction false} DedupKeepsFirstOccurrenceOrder<T>(s: seq<T>, i: nat, j: nat)
    requires i < j < |Dedup(s)|
    ensures Dedup(s)[i] in s && Dedup(s)[j] in s
    ensures FirstIndex(s, Dedup(s)[i]) < FirstIndex(s, Dedup(s)[j])
    decreases |s|
  {
    var p := s[..|s| - 1];
    var x := s[|s| - 1];
    assert s == p + [x];
    var d := Dedup(p);
    FirstIndexOfExtension(p, x, Dedup(s)[i]);
    FirstIndexOfExtension(p, x, Dedup(s)[j]);
    if x in d {
      DedupKeepsFirstOccurrenceOrder(p, i, j);
    } else if j < |d| {
      DedupKeepsFirstOccurrenceOrder(p, i, j);
    } else {
      assert Dedup(s)[j] == x && x !in p;
      assert Dedup(s)[i] == d[i] && d[i] in p;
    }
  }

  /** Appending an element does not move the first occurrence of anything
      already present. */
  lemma {:induction false} FirstIndexOfExtension<T>(p: seq<T>, x: T, y: T)
    requires y in p + [x]
    ensures y in p ==> FirstIndex(p + [x], y) == FirstIndex(p, y)
    ensures y !in p ==> FirstIndex(p + [x], y) == |p|
    decreases |p|
  {
    if p != [] && p[0] != y {
      assert (p + [x])[1..] == p[1..] + [x];
      assert y in p <==> y in p[1..];
      FirstIndexOfExtension(p[1..], x, y);
    }
  }

  /** Appends, in order, each element of `xs` not yet present (the
      "don't append duplicates" loops of the converter). */
  function AppendMissing<T(==)>(acc: seq<T>, xs: seq<T>): (r: seq<T>)
    ensures acc <= r
    ensures forall x :: x in r ==> x in acc || x in xs
    ensures forall x :: x in xs ==> x in r
    ensures NoDuplicates(acc) ==> NoDuplicates(r)
    decreases |xs|
  {
    if xs == [] then acc
    else
      assert forall x :: x in xs ==> x == xs[0] || x in xs[1..];
      var next := if xs[0] in acc then acc else acc + [xs[0]];
      var r := AppendMissing(next, xs[1..]);
      assert xs[0] in r by {
        assert xs[0] in next;
        assert next == r[..|next|];
      }
      r
  }

  /** De-duplicating a duplicate-free sequence changes nothing. */
  lemma {:induction false} DedupOfDistinct<T>(s: seq<T>)
    requires NoDuplicates(s)
    ensures Dedup(s) == s
    decreases |s|
  {
    if s != [] {
      var p := s[..|s| - 1];
      assert s == p + [s[|s| - 1]];
      assert NoDuplicates(p);
      DedupOfDistinct(p);
      assert s[|s| - 1] !in p;
    }
  }

  /** Appending what is missing to a de-duplicated prefix is the same as
      de-duplicating the concatenation. */
  lemma {:induction false} AppendMissingIsDedup<T>(p: seq<T>, xs: seq<T>)
    ensures AppendMissing(Dedup(p), xs) == Dedup(p + xs)
    decreases |xs|
  {
    if xs == [] {
      assert p + xs == p;
    } else {
      var q := p + [xs[0]];
      calc {
        AppendMissing(Dedup(p), xs);
        { DedupSnoc(p, xs[0]); }
        AppendMissing(Dedup(q), xs[1..]);
        { AppendMissingIsDedup(q, xs[1..]); }
        Dedup(q + xs[1..]);
        { assert q + xs[1..] == p + xs; }
        Dedup(p + xs);
      }
    }
  }

  /** Dedup of a sequence extended by one element. */
  lemma DedupSnoc<T>(p: seq<T>, x: T)
    ensures Dedup(p + [x]) == if x in Dedup(p) then Dedup(p) else Dedup(p) + [x]
  {
    var q := p + [x];
    assert q[..|q| - 1] == p;
  }

  /** So appending what is missing to a duplicate-free list de-duplicates
      the concatenation. */
  lemma AppendMissingDedups<T>(acc: seq<T>, xs: seq<T>)
    requires NoDuplicates(acc)
    ensures AppendMissing(acc, xs) == Dedup(acc + xs)
  {
    DedupOfDistinct(acc);
    AppendMissingIsDedup(acc, xs);
  }
}

=== FILE: vendor_products.dfy ===
/** The (vendor, product) pair that keys the repository cache and the
    vendor/product deny list, and its `vendor:product` text encoding. */
module VendorProducts {
  import opened Wrappers

  datatype VendorProduct = VendorProduct(vendor: string, product: string)

  /** Joins pieces with ':' between them (the inverse of SplitColon). */
  function JoinColon(parts: seq<string>): string
    decreases |parts|
  {
    if parts == [] then ""
    else if |parts| == 1 then parts[0]
    else parts[0] + ":" + JoinColon(parts[1..])
  }

  /** Go's `strings.Split(s, ":")`: the pieces between colons, at least one
      piece, an empty string for an empty input. */
  function SplitColon(s: string): (parts: seq<string>)
    ensures |parts| >= 1
    ensures forall i :: 0 <= i < |parts| ==> ':' !in parts[i]
    ensures JoinColon(parts) == s
    ensures ':' !in s <==> parts == [s]
    decreases |s|
  {
    if s == [] then [""]
    else
      var rest := SplitColon(s[1..]);
      assert s == [s[0]] + s[1..];
      if s[0] == ':' then
        assert JoinColon([""] + rest) == "" + ":" + JoinColon(rest) by {
          assert ([""] + rest)[1..] == rest;
        }
        [""] + rest
      else
        var parts := [[s[0]] + rest[0]] + rest[1..];
        assert parts[1..] == rest[1..];
        assert JoinColon(parts) == [s[0]] + JoinColon(rest);
        parts
  }

  /** Splitting what was joined gives the pieces back, provided no piece
      holds a colon. */
  lemma {:induction false} SplitJoin(parts: seq<string>)
    requires |parts| >= 1
    requires forall i :: 0 <= i < |parts| ==> ':' !in parts[i]
    ensures SplitColon(JoinColon(parts)) == parts
    decreases |parts|
  {
    if |parts| > 1 {
      SplitJoin(parts[1..]);
      SplitPrefix(parts[0], JoinColon(parts[1..]));
    }
  }

  /** A colon-free prefix followed by a colon splits off as the first piece. */
  lemma {:induction false} SplitPrefix(a: string, b: string)
    requires ':' !in a
    ensures SplitColon(a + ":" + b) == [a] + SplitColon(b)
    decreases |a|
  {
    if a == [] {
      assert a + ":" + b == [':'] + b;
      assert ([':'] + b)[1..] == b;
    } else {
      assert (a + ":" + b)[1..] == a[1..] + ":" + b;
      SplitPrefix(a[1..], b);
      assert [a[0]] + a[1..] == a;
    }
  }

  datatype UnmarshalError = MissingColon

  /** `VendorProduct.UnmarshalText`: splits on ':' and takes the first two
      pieces. A text without a colon makes Go index past the end of the
      split result (a run-time panic), modelled as `MissingColon`. */
  function UnmarshalText(text: string): (r: Result<VendorProduct, UnmarshalError>)
    ensures r.Success? <==> ':' in text
    ensures r.Success? ==> ':' !in r.value.vendor && ':' !in r.value.product
    ensures r.Success? ==> r.value.vendor + ":" + r.value.product <= text
    ensures r.Success? ==>
      text == r.value.vendor + ":" + r.value.product || r.value.vendor + ":" + r.value.product + ":" <= text
  {
    var s := SplitColon(text);
    if |s| < 2 then Failure(MissingColon)
    else
      assert text == JoinColon(s);
      assert JoinColon(s) == s[0] + ":" + JoinColon(s[1..]);
      assert s[1..][0] == s[1];
      assert JoinColon(s[1..]) == s[1] || JoinColon(s[1..]) == s[1] + ":" + JoinColon(s[2..]) by {
        assert s[1..][1..] == s[2..];
      }
      assert text == s[0] + ":" + s[1] || text == (s[0] + ":" + s[1] + ":") + JoinColon(s[2..]);
      Success(VendorProduct(s[0], s[1]))
  }

  /** Text written as `vendor:product` decodes to that pair when neither
      half holds a colon. */
  lemma UnmarshalTextRoundTrip(vp: VendorProduct)
    requires ':' !in vp.vendor && ':' !in vp.product
    ensures UnmarshalText(vp.vendor + ":" + vp.product) == Success(vp)
  {
    SplitJoin([vp.vendor, vp.product]);
    assert JoinColon([vp.vendor, vp.product]) == vp.vendor + ":" + vp.product by {
      assert [vp.vendor, vp.product][1..] == [vp.product];
    }
  }
}

=== FILE: wrappers.dfy ===
/** Failure-compatible wrappers used across the model: an optional value
    (a Go nil pointer, a failed lookup) and a value-or-error result (a Go
    `(T, error)` pair). */
module Wrappers {

  datatype Option<+T> = None | Some(value: T)

  datatype Result<+T, +E> = Success(value: T) | Failure(error: E)
}
